=== FILE: README.md ===
# doge-bot group membership, modelled in Dafny

The doge bot is a Matrix chat plugin. It lets an operator define named
**groups**, each holding a list of **user edges** (Matrix user ids) and a list of
**room edges** (Matrix room ids, with the alias each was attached by). The bot
keeps room membership in step with the groups. Appending a user to a group
invites that user into the group's rooms. Attaching a room invites the group's
users. Removing either kicks the affected users, except users that another
group attached to the same room still holds. The companion room bot contributes
only its two identifier parsers.

The model is functional. The store is a value (`Store.State`: the group
sequence plus the next id to assign). Each command is a pure function from the
state to `Result<Commit, UserError>`. The session (`Commands.Session`) either
rolls back or commits. On commit it runs the reconciliation hook of the
collection event the command fired. A command's Matrix calls are returned as a
list of actions and not performed. The only `Join` comes from the body of
`add_group_to_room` itself; the hooks return only `Invite` and `Kick` actions.
`Commands.Handle` is one whole chat command: the session around its body.

Modules, one per source concern:

- `Wrappers`: `Option` and `Result`.
- `Strings`: prefix, suffix and infix predicates.
- `Entity` (doge/entity.py): the records, equality by external key, `room_alias_or_id` and the table constraints.
- `Store` (doge/db.py): the state, its validity invariant and the four queries.
- `Identifiers` (doge/bot.py): `parse_user_id` and `parse_room_id_or_alias`.
- `Roombot` (roombot/bot.py): `parse_user_id` and `parse_room_alias`.
- `Reconcile` (doge/bot.py): the four hooks and the listener dispatch.
- `Commands` (doge/bot.py): `resolve_room`, the six command bodies and the session.
- `Properties`: properties of whole commands.

External inputs are parameters, collected in `Commands.Env`:

- the home server domain;
- a snapshot of each room's joined members (`get_joined_members`);
- the set of rooms the bot has joined (`get_joined_rooms`);
- the alias directory, a map from alias to room id (`resolve_room_alias`). A missing alias is `MNotFound`.

## Model

| member | source | states |
|---|---|---|
| Entity.GroupEqualityByName | doge/entity.py:17-18 | group equality is an equivalence (reflexive, symmetric and transitive) decided by the name alone; the id and the edge lists never change the answer |
| Entity.UserEqualityByKey | doge/entity.py:29-30 | user-edge equality is an equivalence (reflexive, symmetric and transitive) decided by the user id alone; the owning group is ignored, and `in` over a user list agrees with it |
| Entity.RoomEqualityByKey | doge/entity.py:39-40 | room-edge equality is an equivalence (reflexive, symmetric and transitive) decided by the room id alone; the owning group and the alias are ignored, and `in` over a room list agrees with it |
| Entity.RoomAliasOrId | doge/entity.py:42-44 | returns the alias when it is set and non-empty, otherwise the room id |
| Store.EmptyIsValid | doge/entity.py:10-37 | the empty store satisfies the table constraints: unique names, unique ids, and no duplicate (group, user) or (group, room) edge |
| Store.UniqueNameIdentifies | doge/entity.py:13 | in a valid store, two groups with the same name are the same group |
| Store.IndexOfName | doge/db.py:13-14 | finds the first group with exactly that name, or reports that no group has it |
| Store.GetGroupByName | doge/db.py:13-14 | returns none iff no group has that name; otherwise returns a stored group with that name, and in a valid store it is the only one |
| Store.FindAllGroups | doge/db.py:16-17 | returns every group of the store, as many as the store holds |
| Store.GroupsWithRoom | doge/db.py:19-20 | the filter returns exactly the groups holding an edge with that room id, as a subsequence of its input |
| Store.FindGroupsByRoom | doge/db.py:19-20 | a group is in the result iff it is stored and has an edge with the room's id; the result is a subsequence of `find_all_groups` |
| Store.GroupsWithUser | doge/db.py:22-23 | the filter returns exactly the groups holding an edge with that user id, as a subsequence of its input |
| Store.FindGroupsByUser | doge/db.py:22-23 | a group is in the result iff it is stored and has an edge with the user's id; the result is a subsequence of `find_all_groups` |
| Store.SubsequenceIsContained | doge/db.py:19-23 | a subsequence is no longer than its host and lists nothing the host lacks |
| Identifiers.ParseUserId | doge/bot.py:240-245 | the result is exactly the input, with `@` in front only when the input did not start with it and `:domain` behind only when the input had no `:`; so it starts with `@`, contains `:` and the input, and an input that already has both is returned unchanged |
| Identifiers.ParseUserIdIdempotent | doge/bot.py:240-245 | normalising a user id twice equals normalising it once |
| Identifiers.ParseRoomIdOrAlias | doge/bot.py:247-257 | the result is exactly the input, with `#` in front only when the input started with neither `!` nor `#` and `:domain` behind only when the input had no `:`; so it contains `:`, starts with `!` iff the input does and with `#` otherwise, a `!` id only gains `:domain`, and a qualified `!` or `#` reference is unchanged |
| Identifiers.ParseRoomIdOrAliasIdempotent | doge/bot.py:247-257 | normalising a room reference twice equals normalising it once |
| Roombot.ParseUserId | roombot/bot.py:57-62 | the result is exactly the input, with `@` in front only when missing and `:domain` behind only when the input had no `:`; it starts with `@` and contains `:`, and an input that already has both is unchanged |
| Roombot.ParseRoomAlias | roombot/bot.py:64-69 | the result is exactly the input, with `#` in front only when missing and `:domain` behind only when the input had no `:`; it starts with `#` and contains `:`, and a qualified `#alias:server` is unchanged |
| Roombot.UserIdAgreesWithGroupBot | roombot/bot.py:57-62 | the room bot's user-id parser gives the same result as the group bot's on every input |
| Roombot.ParseUserIdIdempotent | roombot/bot.py:57-62 | the room bot's user-id parser is idempotent |
| Roombot.ParseRoomAliasIdempotent | roombot/bot.py:64-69 | the alias parser is idempotent |
| Roombot.QualifiedAliasAgrees | roombot/bot.py:64-69 | on a non-`!` input that contains `:`, the room bot's result is the input itself when it starts with `#` and `#` + input otherwise, so it only adds the missing `#`; the group bot's room parser gives the same string |
| Roombot.HashedAliasAgrees | roombot/bot.py:64-69 | on a `#` input without `:`, the room bot's result is exactly input + `:` + domain, so it only appends the domain; the group bot's room parser gives the same string |
| Roombot.BareAliasAgrees | roombot/bot.py:64-69 | on a bare name, the room bot's result is exactly `#` + input + `:` + domain, and the group bot's room parser gives the same string, although the two take the steps in opposite order |
| Roombot.AliasAgreesWithGroupBot | roombot/bot.py:64-69 | on every input that does not start with `!`, the room bot's alias parser agrees with the group bot's room parser |
| Roombot.RoomIdDivergesFromGroupBot | roombot/bot.py:64-69 | on a `!` input the room bot yields exactly `#` + input (+ `:domain` when the input had no `:`), an alias, while the group bot keeps a `!` room id, so the two disagree |
| Reconcile.OtherGrantIsEntitlement | doge/bot.py:196-197 | scanning `find_groups_by_room` for a differently named group that holds the user is true exactly when some other stored group attaches the room and holds the user |
| Reconcile.KickDecisionIgnoresOwnGroup | doge/bot.py:196-197 | the keep-or-kick test gives the same answer on any two stores that agree on every group of another name |
| Reconcile.InviteUserToRooms | doge/bot.py:170-186 | only invites of the appended user, and no call twice when the group's room ids are distinct; the user is invited into a room iff the room is in the group's list and the user is not a joined member |
| Reconcile.RemoveUserFromRooms | doge/bot.py:188-204 | only kicks of the removed user, and no call twice when the group's room ids are distinct; the user is kicked from a room iff the room is in the group's list and no other group attaching it holds the user |
| Reconcile.InviteUsersToRoom | doge/bot.py:206-220 | only invites into the appended room, and no call twice when the group's user ids are distinct; a user is invited iff they are in the group's list and not a joined member |
| Reconcile.RemoveUsersFromRoom | doge/bot.py:222-238 | only kicks from the removed room, and no call twice when the group's user ids are distinct; a user is kicked iff they are in the group's list and no other group attaching the room holds them |
| Reconcile.NoRepeatsIsPairwiseDistinct | doge/bot.py:170-238 | "no call repeats a later one", the form the hooks' contracts use, is the same as "any two calls at different positions differ" |
| Reconcile.OnChange | doge/bot.py:36-39 | appends lead only to invites and removals only to kicks; a command that fires no collection event leads to no call |
| Commands.FirstUserIndex | doge/bot.py:130 | the position `list.remove` searches for: an edge with that user id, and no earlier edge has it |
| Commands.FirstRoomIndex | doge/bot.py:167 | the position `list.remove` searches for: an edge with that room id, and no earlier edge has it |
| Commands.RemoveFirstUser | doge/bot.py:130 | cuts out the first edge with that user id: the edges before it stay in place and the edges after it move down by one, so exactly one edge goes and the order is kept; on a list without duplicate user ids, that user is gone, every other user stays, and the list still has no duplicates |
| Commands.RemoveFirstRoom | doge/bot.py:167 | cuts out the first edge with that room id: the edges before it stay in place and the edges after it move down by one, so exactly one edge goes and the order is kept; on a list without duplicate room ids, that room is gone, every other room stays, and the list still has no duplicates |
| Commands.ResolveRoom | doge/bot.py:259-269 | a `!` reference resolves to itself with no alias; an alias resolves through the directory and keeps the alias; an alias missing from the directory is a user error |
| Commands.Create | doge/bot.py:83-91 | rejects exactly when the name is taken; otherwise appends one empty group with that name and the next store id |
| Commands.Delete | doge/bot.py:93-101 | rejects exactly when no group has the name; otherwise removes one group, fires no collection event, and in a valid store leaves exactly the groups of other names |
| Commands.AddUserToGroup | doge/bot.py:103-116 | rejects an unknown group, or a user id already in it; otherwise appends exactly that user edge to that group, changes no other group, and fires the user-append event |
| Commands.RemoveUserFromGroup | doge/bot.py:118-131 | rejects an unknown group, or a user id not in it; otherwise removes that user's edge from that group, changes no other group, and fires the user-remove event |
| Commands.AddGroupToRoom | doge/bot.py:133-151 | checks in this order: an unknown group, an unresolvable alias, a room id already attached; otherwise joins first iff the bot is not in the room, appends the room edge, and changes no other group |
| Commands.RemoveGroupFromRoom | doge/bot.py:153-168 | rejects an unknown group, an unresolvable alias, or a room id not attached; otherwise removes that room edge from that group and changes no other group |
| Commands.Execute | doge/bot.py:83-168 | a successful body fires the event of its own collection and no other: create and delete fire none, each add or remove fires its append or remove event; a call made by the body itself is a join, and only attaching a room makes one |
| Commands.Session | doge/bot.py:41-55 | a user error rolls back: the store is unchanged, no call is made, and the error is reported; otherwise the body's state is committed, and the body's own calls come before the hook's |
| Commands.Handle | doge/bot.py:36-168 | a rejected command leaves the store and makes no call; create and delete make no call; a join comes only from attaching a room, an invite only from adding a user or a room, a kick only from removing one |
| Properties.CreatePreservesValid | doge/bot.py:85-90 | creating a group keeps names and ids unique |
| Properties.DeletePreservesValid | doge/bot.py:95-100 | deleting a group keeps the store valid |
| Properties.AddUserPreservesValid | doge/bot.py:107-115 | the duplicate check before appending keeps user ids distinct within the group |
| Properties.RemoveUserPreservesValid | doge/bot.py:122-130 | removing a user edge keeps the group well formed |
| Properties.AddRoomPreservesValid | doge/bot.py:139-150 | the duplicate check before appending keeps room ids distinct within the group |
| Properties.RemoveRoomPreservesValid | doge/bot.py:159-167 | removing a room edge keeps the group well formed |
| Properties.ExecutePreservesValid | doge/entity.py:10-37 | every command body that succeeds leaves a store that meets the table constraints |
| Properties.HandlePreservesValid | doge/entity.py:10-37 | from a valid store, every command, accepted or rejected, leaves a valid store |
| Properties.EntitledWithoutOwnGroup | doge/bot.py:196-197 | once a group no longer grants a (room, user) pair, the user is entitled to the room iff some other group grants it |
| Properties.RejectionChangesNothing | doge/bot.py:47-49 | a rejected command leaves the store as it was and makes no Matrix call |
| Properties.CreateRejectsTakenName | doge/bot.py:85-90 | creating under a taken name returns the store unchanged with the `already exist` error; under a free name, the name then finds exactly one new empty group |
| Properties.DeleteMakesNoCalls | doge/bot.py:95-101 | deleting a group makes no Matrix call; on success exactly the groups of other names remain |
| Properties.AddUserInvitesExactly | doge/bot.py:170-186 | after adding a user, the only calls are invites of that user; there is one for each room of the group where the user is not a joined member, and each is for a room the user is now entitled to; no invite is made twice |
| Properties.RemoveUserKicksExactly | doge/bot.py:188-204 | after removing a user, the only calls are kicks of that user; there is one for each room of the group that no remaining group grants the user, and no kick is made twice, so a room is revoked exactly once |
| Properties.AddRoomInvitesExactly | doge/bot.py:206-220 | after attaching a room, a join happens iff the bot was not in it; every other call invites a group member into that room; each member who is not joined is invited; no call is made twice |
| Properties.RemoveRoomKicksExactly | doge/bot.py:222-238 | after detaching a room, the only calls are kicks from it; a member is kicked iff no remaining group grants them that room, and no kick is made twice |
| Properties.HandleMakesNoRepeats | doge/bot.py:36-238 | on a valid store, no command makes the same Matrix call twice: the hooks walk edge lists that hold no id twice, and the one join of an attached room is not an invite |
| Properties.NeverKickEntitled | doge/bot.py:195-204 | no command kicks a user from a room some group still grants them; every invite targets a user entitled to the room and not yet joined |
| Properties.KickHookSameBeforeAndAfter | doge/bot.py:192-197 | the user-removal hook gives the same kicks on two stores that agree on every other group |
| Properties.RoomKickHookSameBeforeAndAfter | doge/bot.py:226-231 | the room-removal hook gives the same kicks on two stores that agree on every other group |
| Properties.HooksSameBeforeAndAfterCommit | doge/bot.py:23-27 | the calls of a successful command are the same whether its scheduled hook reads the store before or after the commit |
| Properties.NoKickWhenGrantedElsewhere | doge/bot.py:188-204 | removing a user from a one-room group kicks nobody when another group still grants them that room |
| Properties.OneKickWhenGrantedNowhere | doge/bot.py:188-204 | removing a user from a one-room group kicks them from that room, once, when no other group grants it |
| Properties.UnionExampleKeepsShared | doge/bot.py:188-204 | with bob in `eng` and `ops`, both attached to one room, removing bob from `eng` kicks nobody |
| Properties.UnionExampleRevokesLast | doge/bot.py:188-204 | removing bob from `ops` afterwards kicks him from that room exactly once |

## Left out

- Command dispatch, argument parsing, the replies and `ping` (doge/bot.py:57-59), and the text layout of `list_groups` (doge/bot.py:61-81): these are the user interface. The error values keep the data their messages show, but not the text.
- Concurrency: `synchronize` runs each hook as a separate task (doge/bot.py:23-27). The model runs the hook right after the commit. Instead of modelling the interleaving, `Properties.HooksSameBeforeAndAfterCommit` shows that the hook's calls do not depend on whether the commit has happened. Races between hooks of different commands are not modelled.
- The SQLAlchemy machinery: engine setup, `event.listen`, `joinedload`, flushing and the session object. `Reconcile.OnChange` stands for the four listeners, and a pure state stands for the session.
- Unexpected exceptions (doge/bot.py:50-53): the model has no failure other than `UserError`. A failing Matrix call (invite, kick, join, member query) is not modelled either, so every action listed is assumed to be attempted.
- `get_joined_members` is one occupancy snapshot per hook. The code asks once per room or once per user, so the answer could change between queries. A room missing from the snapshot has no joined members.
- `MultipleResultsFound` from `one_or_none` (doge/db.py:14): the unique name rules it out in every valid store, and the model returns the first match.
- Id assignment: a new group gets `nextId`. SQLite's ability to reuse the largest id after a deletion is not modelled. Ids appear only in edges, and edge equality ignores them.
- A hook receives the freshly built `User` or `Room` object, whose `group_id` is still unset. The model gives that edge the group's id. The hooks read only the user id or room id of it.
- `Group.__str__` and the logging calls inside the hooks.
- The room bot's command handlers (roombot/bot.py:15-55) and its migrations (roombot/migrations.py): they are thin wrappers over the Matrix client and SQL DDL.
- Renaming a group: the code has no such command.
- Revocation on deletion: deleting a group cascades its edges without firing a collection event, so nobody is kicked, in the code and in the model (`Properties.DeleteMakesNoCalls`).
- Empty group names: the schema only declares the name NOT NULL and UNIQUE, so the model accepts an empty name, as the code does.

=== FILE: commands.dfy ===
/** The group bot's commands and the session around them. Each command looks
    its arguments up, validates them, and either raises a user error (the
    session rolls back and nothing is sent to the Matrix server) or changes
    one group's edge list (the session commits, and the collection listener
    fires its reconciliation hook). */
module Commands {
  import opened Wrappers
  import opened Strings
  import opened Entity
  import opened Store
  import opened Identifiers
  import opened Reconcile

  /** The `UserError`s the commands raise, with the values their messages show. */
  datatype UserError =
    | GroupExists(name: string)
    | GroupNotFound(name: string)
    | UserAlreadyInGroup(userId: UserId, groupName: string)
    | UserNotInGroup(userId: UserId, groupName: string)
    | RoomAlreadyAttached(groupName: string, roomAlias: Option<string>)
    | RoomNotAttached(groupName: string, roomAlias: Option<string>)
    | AliasNotFound(alias: string)

  /** The six mutating chat commands with their arguments as typed. */
  datatype Command =
    | CreateGroup(name: string)
    | DeleteGroup(name: string)
    | AddUser(groupName: string, userName: string)
    | RemoveUser(groupName: string, userName: string)
    | AddRoom(groupName: string, roomIdOrAlias: string)
    | RemoveRoom(groupName: string, roomIdOrAlias: string)

  /** What the bot learns from the Matrix server and its configuration:
      the home domain, the joined members of each room, the rooms the bot has
      joined, and the alias directory (`resolve_room_alias`; an alias it does
      not list is not found). */
  datatype Env = Env(
    domain: string,
    occupancy: Occupancy,
    joinedRooms: set<RoomId>,
    aliases: map<string, RoomId>)

  /** A command body that ran to its end: the state to commit, the client
      calls it made itself, and the collection event it fired. */
  datatype Commit = Commit(state: State, joins: seq<Action>, change: Change)

  /** What a whole command amounts to: the state after commit or rollback,
      every client call made, and the error reported, if any. */
  datatype Outcome = Outcome(state: State, actions: seq<Action>, error: Option<UserError>)

  /** A room reference after `resolve_room`. */
  datatype ResolvedRoom = ResolvedRoom(roomId: RoomId, alias: Option<string>)

  /** `s` with the item at position `k` taken out: the items before it stay
      where they are and the items after it move down by one. */
  function Cut<T>(s: seq<T>, k: nat): (r: seq<T>)
    requires k < |s|
    ensures |r| == |s| - 1
    ensures forall i :: 0 <= i < k ==> r[i] == s[i]
    ensures forall i :: k <= i < |r| ==> r[i] == s[i + 1]
  {
    s[..k] + s[k + 1..]
  }

  /** Every item left after a cut was in the list before it. */
  lemma CutKeepsItems<T>(s: seq<T>, k: nat)
    requires k < |s|
    ensures forall e :: e in Cut(s, k) ==> e in s
  {
    var r := Cut(s, k);
    forall e | e in r
      ensures e in s
    {
      var i :| 0 <= i < |r| && r[i] == e;
      if i < k {
        assert r[i] == s[i];
      } else {
        assert r[i] == s[i + 1];
      }
    }
  }

  /** The position of the first edge with that user id. */
  function FirstUserIndex(users: seq<UserEdge>, userId: UserId): (k: nat)
    requires UserIn(users, userId)
    ensures k < |users| && users[k].userId == userId
    ensures forall i :: 0 <= i < k ==> users[i].userId != userId
  {
    UserInSplit(users);
    if users[0].userId == userId then 0
    else
      var k := FirstUserIndex(users[1..], userId);
      assert forall i :: 0 < i <= k ==> users[i] == users[1..][i - 1];
      k + 1
  }

  /** Cutting one edge out of a list without duplicate ids removes exactly
      that id: the others keep their ids and still have no duplicates. */
  lemma CutDistinctUsers(users: seq<UserEdge>, k: nat)
    requires k < |users| && DistinctUsers(users)
    ensures var r := Cut(users, k);
      && DistinctUsers(r) && !UserIn(r, users[k].userId)
      && forall u :: u != users[k].userId ==> (UserIn(r, u) <==> UserIn(users, u))
  {
    var r := Cut(users, k);
    forall i, j | 0 <= i < j < |r|
      ensures r[i].userId != r[j].userId
    {
      assert r[i] == users[if i < k then i else i + 1];
      assert r[j] == users[if j < k then j else j + 1];
    }
    forall i | 0 <= i < |r|
      ensures r[i].userId != users[k].userId
    {
      assert r[i] == users[if i < k then i else i + 1];
    }
    forall u | u != users[k].userId && UserIn(users, u)
      ensures UserIn(r, u)
    {
      var i :| 0 <= i < |users| && users[i].userId == u;
      var i' := if i < k then i else i - 1;
      assert r[i'] == users[if i' < k then i' else i' + 1];
    }
    forall u | UserIn(r, u)
      ensures UserIn(users, u)
    {
      var i :| 0 <= i < |r| && r[i].userId == u;
      assert r[i] == users[if i < k then i else i + 1];
    }
  }

  /** Python's `users.remove(user)`: cut out the first edge with that user id,
      keeping the others in their order. */
  function RemoveFirstUser(users: seq<UserEdge>, userId: UserId): (r: seq<UserEdge>)
    requires UserIn(users, userId)
    ensures |r| == |users| - 1
    ensures var k := FirstUserIndex(users, userId);
      && (forall i :: 0 <= i < k ==> r[i] == users[i])
      && (forall i :: k <= i < |r| ==> r[i] == users[i + 1])
    ensures forall e :: e in r ==> e in users
    ensures DistinctUsers(users) ==> DistinctUsers(r) && !UserIn(r, userId)
    ensures DistinctUsers(users) ==> forall u :: u != userId ==> (UserIn(r, u) <==> UserIn(users, u))
  {
    var k := FirstUserIndex(users, userId);
    CutKeepsItems(users, k);
    if DistinctUsers(users) then CutDistinctUsers(users, k); Cut(users, k)
    else Cut(users, k)
  }

  /** The position of the first edge with that room id. */
  function FirstRoomIndex(rooms: seq<RoomEdge>, roomId: RoomId): (k: nat)
    requires RoomIn(rooms, roomId)
    ensures k < |rooms| && rooms[k].roomId == roomId
    ensures forall i :: 0 <= i < k ==> rooms[i].roomId != roomId
  {
    RoomInSplit(rooms);
    if rooms[0].roomId == roomId then 0
    else
      var k := FirstRoomIndex(rooms[1..], roomId);
      assert forall i :: 0 < i <= k ==> rooms[i] == rooms[1..][i - 1];
      k + 1
  }

  /** Cutting one edge out of a list without duplicate ids removes exactly
      that id: the others keep their ids and still have no duplicates. */
  lemma CutDistinctRooms(rooms: seq<RoomEdge>, k: nat)
    requires k < |rooms| && DistinctRooms(rooms)
    ensures var r := Cut(rooms, k);
      && DistinctRooms(r) && !RoomIn(r, rooms[k].roomId)
      && forall x :: x != rooms[k].roomId ==> (RoomIn(r, x) <==> RoomIn(rooms, x))
  {
    var r := Cut(rooms, k);
    forall i, j | 0 <= i < j < |r|
      ensures r[i].roomId != r[j].roomId
    {
      assert r[i] == rooms[if i < k then i else i + 1];
      assert r[j] == rooms[if j < k then j else j + 1];
    }
    forall i | 0 <= i < |r|
      ensures r[i].roomId != rooms[k].roomId
    {
      assert r[i] == rooms[if i < k then i else i + 1];
    }
    forall x | x != rooms[k].roomId && RoomIn(rooms, x)
      ensures RoomIn(r, x)
    {
      var i :| 0 <= i < |rooms| && rooms[i].roomId == x;
      var i' := if i < k then i else i - 1;
      assert r[i'] == rooms[if i' < k then i' else i' + 1];
    }
    forall x | RoomIn(r, x)
      ensures RoomIn(rooms, x)
    {
      var i :| 0 <= i < |r| && r[i].roomId == x;
      assert r[i] == rooms[if i < k then i else i + 1];
    }
  }

  /** Python's `rooms.remove(room)`: cut out the first edge with that room id,
      keeping the others in their order. */
  function RemoveFirstRoom(rooms: seq<RoomEdge>, roomId: RoomId): (r: seq<RoomEdge>)
    requires RoomIn(rooms, roomId)
    ensures |r| == |rooms| - 1
    ensures var k := FirstRoomIndex(rooms, roomId);
      && (forall i :: 0 <= i < k ==> r[i] == rooms[i])
      && (forall i :: k <= i < |r| ==> r[i] == rooms[i + 1])
    ensures forall e :: e in r ==> e in rooms
    ensures DistinctRooms(rooms) ==> DistinctRooms(r) && !RoomIn(r, roomId)
    ensures DistinctRooms(rooms) ==> forall x :: x != roomId ==> (RoomIn(r, x) <==> RoomIn(rooms, x))
  {
    var k := FirstRoomIndex(rooms, roomId);
    CutKeepsItems(rooms, k);
    if DistinctRooms(rooms) then CutDistinctRooms(rooms, k); Cut(rooms, k)
    else Cut(rooms, k)
  }

  /** `resolve_room`: a `!` room id stands for itself with no alias; anything
      else is an alias looked up in the directory, its absence a user error. */
  function ResolveRoom(roomIdOrAlias: string, aliases: map<string, RoomId>): (r: Result<ResolvedRoom, UserError>)
    ensures r.Failure? <==> !StartsWith(roomIdOrAlias, '!') && roomIdOrAlias !in aliases
    ensures r.Failure? ==> r.error == AliasNotFound(roomIdOrAlias)
    ensures r.Success? && StartsWith(roomIdOrAlias, '!') ==> r.value == ResolvedRoom(roomIdOrAlias, None)
    ensures r.Success? && !StartsWith(roomIdOrAlias, '!') ==>
      r.value.alias == Some(roomIdOrAlias) && r.value.roomId == aliases[roomIdOrAlias]
  {
    if StartsWith(roomIdOrAlias, '!') then Success(ResolvedRoom(roomIdOrAlias, None))
    else if roomIdOrAlias in aliases then Success(ResolvedRoom(aliases[roomIdOrAlias], Some(roomIdOrAlias)))
    else Failure(AliasNotFound(roomIdOrAlias))
  }

  /** `create_group`: reject a taken name; otherwise add an empty group under
      the next store-assigned id. */
  function Create(s: State, name: string): (r: Result<Commit, UserError>)
    ensures r.Failure? <==> exists g :: g in s.groups && g.name == name
    ensures r.Failure? ==> r.error == GroupExists(name)
    ensures r.Success? ==>
      && r.value.state.groups == s.groups + [Group(s.nextId, name, [], [])]
      && r.value.state.nextId == s.nextId + 1
      && r.value.joins == [] && r.value.change == NoChange
  {
    match GetGroupByName(s, name)
    case Some(g) => Failure(GroupExists(g.name))
    case None => Success(Commit(State(s.groups + [Group(s.nextId, name, [], [])], s.nextId + 1), [], NoChange))
  }

  /** `delete_group`: reject an unknown name; otherwise drop the group, its
      edges going with it (ORM cascade). No collection event fires. */
  function Delete(s: State, name: string): (r: Result<Commit, UserError>)
    ensures r.Failure? <==> forall g :: g in s.groups ==> g.name != name
    ensures r.Failure? ==> r.error == GroupNotFound(name)
    ensures r.Success? ==>
      && |r.value.state.groups| == |s.groups| - 1
      && (forall g :: g in r.value.state.groups ==> g in s.groups)
      && r.value.state.nextId == s.nextId
      && r.value.joins == [] && r.value.change == NoChange
    ensures r.Success? && Valid(s) ==>
      forall g :: g in r.value.state.groups <==> g in s.groups && g.name != name
  {
    match IndexOfName(s.groups, name)
    case None => Failure(GroupNotFound(name))
    case Some(i) =>
      var groups := s.groups[..i] + s.groups[i + 1..];
      assert forall g :: g in groups <==> exists j :: 0 <= j < |s.groups| && j != i && s.groups[j] == g by {
        forall g | g in groups
          ensures exists j :: 0 <= j < |s.groups| && j != i && s.groups[j] == g
        {
          var k :| 0 <= k < |groups| && groups[k] == g;
          if k < i { assert s.groups[k] == g; } else { assert s.groups[k + 1] == g; }
        }
        forall g | exists j :: 0 <= j < |s.groups| && j != i && s.groups[j] == g
          ensures g in groups
        {
          var j :| 0 <= j < |s.groups| && j != i && s.groups[j] == g;
          if j < i { assert groups[j] == g; } else { assert groups[j - 1] == g; }
        }
      }
      Success(Commit(State(groups, s.nextId), [], NoChange))
  }

  /** `add_user_to_group`: reject an unknown group or a user id already in it;
      otherwise append exactly that user edge to that group. */
  function AddUserToGroup(s: State, groupName: string, userName: string, domain: string): (r: Result<Commit, UserError>)
    ensures IndexOfName(s.groups, groupName).None? ==> r == Failure(GroupNotFound(groupName))
    ensures IndexOfName(s.groups, groupName).Some? ==>
      var i := IndexOfName(s.groups, groupName).value;
      var g := s.groups[i];
      var user := UserEdge(g.id, ParseUserId(userName, domain));
      && (r.Failure? <==> HasUser(g, user.userId))
      && (r.Failure? ==> r.error == UserAlreadyInGroup(user.userId, groupName))
      && (r.Success? ==>
            var g' := g.(users := g.users + [user]);
            && r.value.state == s.(groups := s.groups[i := g'])
            && r.value.joins == []
            && r.value.change == UserAppended(g', user))
  {
    match IndexOfName(s.groups, groupName)
    case None => Failure(GroupNotFound(groupName))
    case Some(i) =>
      var g := s.groups[i];
      var user := UserEdge(g.id, ParseUserId(userName, domain));
      if UserIn(g.users, user.userId) then Failure(UserAlreadyInGroup(user.userId, g.name))
      else
        var g' := g.(users := g.users + [user]);
        Success(Commit(s.(groups := s.groups[i := g']), [], UserAppended(g', user)))
  }

  /** `remove_user_from_group`: reject an unknown group or a user id not in
      it; otherwise remove that user's edge from that group. */
  function RemoveUserFromGroup(s: State, groupName: string, userName: string, domain: string): (r: Result<Commit, UserError>)
    ensures IndexOfName(s.groups, groupName).None? ==> r == Failure(GroupNotFound(groupName))
    ensures IndexOfName(s.groups, groupName).Some? ==>
      var i := IndexOfName(s.groups, groupName).value;
      var g := s.groups[i];
      var user := UserEdge(g.id, ParseUserId(userName, domain));
      && (r.Failure? <==> !HasUser(g, user.userId))
      && (r.Failure? ==> r.error == UserNotInGroup(user.userId, groupName))
      && (r.Success? ==>
            var g' := g.(users := RemoveFirstUser(g.users, user.userId));
            && r.value.state == s.(groups := s.groups[i := g'])
            && r.value.joins == []
            && r.value.change == UserRemoved(g', user))
  {
    match IndexOfName(s.groups, groupName)
    case None => Failure(GroupNotFound(groupName))
    case Some(i) =>
      var g := s.groups[i];
      var user := UserEdge(g.id, ParseUserId(userName, domain));
      if !UserIn(g.users, user.userId) then Failure(UserNotInGroup(user.userId, g.name))
      else
        var g' := g.(users := RemoveFirstUser(g.users, user.userId));
        Success(Commit(s.(groups := s.groups[i := g']), [], UserRemoved(g', user)))
  }

  /** `add_group_to_room`: normalise the reference, reject an unknown group,
      an unknown alias or a room already attached; otherwise join the room
      first if the bot is not in it, then append the room edge. */
  function AddGroupToRoom(s: State, groupName: string, roomIdOrAlias: string, env: Env): (r: Result<Commit, UserError>)
    ensures IndexOfName(s.groups, groupName).None? ==> r == Failure(GroupNotFound(groupName))
    ensures IndexOfName(s.groups, groupName).Some? ==>
      var i := IndexOfName(s.groups, groupName).value;
      var g := s.groups[i];
      var resolved := ResolveRoom(ParseRoomIdOrAlias(roomIdOrAlias, env.domain), env.aliases);
      && (resolved.Failure? ==> r == Failure(resolved.error))
      && (resolved.Success? ==>
            var room := RoomEdge(g.id, resolved.value.roomId, resolved.value.alias);
            && (r.Failure? <==> HasRoom(g, room.roomId))
            && (r.Failure? ==> r.error == RoomAlreadyAttached(groupName, room.alias))
            && (r.Success? ==>
                  var g' := g.(rooms := g.rooms + [room]);
                  && r.value.state == s.(groups := s.groups[i := g'])
                  && (r.value.joins == [] <==> room.roomId in env.joinedRooms)
                  && (r.value.joins != [] ==> r.value.joins == [Join(room.roomId)])
                  && r.value.change == RoomAppended(g', room)))
  {
    var reference := ParseRoomIdOrAlias(roomIdOrAlias, env.domain);
    match IndexOfName(s.groups, groupName)
    case None => Failure(GroupNotFound(groupName))
    case Some(i) =>
      var g := s.groups[i];
      match ResolveRoom(reference, env.aliases)
      case Failure(e) => Failure(e)
      case Success(resolved) =>
        var room := RoomEdge(g.id, resolved.roomId, resolved.alias);
        if RoomIn(g.rooms, room.roomId) then Failure(RoomAlreadyAttached(g.name, room.alias))
        else
          var joins := if room.roomId in env.joinedRooms then [] else [Join(room.roomId)];
          var g' := g.(rooms := g.rooms + [room]);
          Success(Commit(s.(groups := s.groups[i := g']), joins, RoomAppended(g', room)))
  }

  /** `remove_group_from_room`: normalise the reference, reject an unknown
      group, an unknown alias or a room not attached; otherwise remove the
      room's edge from the group. */
  function RemoveGroupFromRoom(s: State, groupName: string, roomIdOrAlias: string, env: Env): (r: Result<Commit, UserError>)
    ensures IndexOfName(s.groups, groupName).None? ==> r == Failure(GroupNotFound(groupName))
    ensures IndexOfName(s.groups, groupName).Some? ==>
      var i := IndexOfName(s.groups, groupName).value;
      var g := s.groups[i];
      var resolved := ResolveRoom(ParseRoomIdOrAlias(roomIdOrAlias, env.domain), env.aliases);
      && (resolved.Failure? ==> r == Failure(resolved.error))
      && (resolved.Success? ==>
            var room := RoomEdge(g.id, resolved.value.roomId, resolved.value.alias);
            && (r.Failure? <==> !HasRoom(g, room.roomId))
            && (r.Failure? ==> r.error == RoomNotAttached(groupName, room.alias))
            && (r.Success? ==>
                  var g' := g.(rooms := RemoveFirstRoom(g.rooms, room.roomId));
                  && r.value.state == s.(groups := s.groups[i := g'])
                  && r.value.joins == []
                  && r.value.change == RoomRemoved(g', room)))
  {
    var reference := ParseRoomIdOrAlias(roomIdOrAlias, env.domain);
    match IndexOfName(s.groups, groupName)
    case None => Failure(GroupNotFound(groupName))
    case Some(i) =>
      var g := s.groups[i];
      match ResolveRoom(reference, env.aliases)
      case Failure(e) => Failure(e)
      case Success(resolved) =>
        var room := RoomEdge(g.id, resolved.roomId, resolved.alias);
        if !RoomIn(g.rooms, room.roomId) then Failure(RoomNotAttached(g.name, room.alias))
        else
          var g' := g.(rooms := RemoveFirstRoom(g.rooms, room.roomId));
          Success(Commit(s.(groups := s.groups[i := g']), [], RoomRemoved(g', room)))
  }

  /** The body of a command, run inside the session. Each body fires the
      event of its own collection and nothing else: creating and deleting a
      group fire none. Only attaching a room makes a call of its own, the join. */
  function Execute(s: State, cmd: Command, env: Env): (r: Result<Commit, UserError>)
    ensures r.Success? ==>
      && (r.value.change.NoChange? <==> cmd.CreateGroup? || cmd.DeleteGroup?)
      && (r.value.change.UserAppended? <==> cmd.AddUser?)
      && (r.value.change.UserRemoved? <==> cmd.RemoveUser?)
      && (r.value.change.RoomAppended? <==> cmd.AddRoom?)
      && (r.value.change.RoomRemoved? <==> cmd.RemoveRoom?)
    ensures r.Success? ==> forall a :: a in r.value.joins ==> a.Join? && cmd.AddRoom?
  {
    match cmd
    case CreateGroup(name) => Create(s, name)
    case DeleteGroup(name) => Delete(s, name)
    case AddUser(groupName, userName) => AddUserToGroup(s, groupName, userName, env.domain)
    case RemoveUser(groupName, userName) => RemoveUserFromGroup(s, groupName, userName, env.domain)
    case AddRoom(groupName, roomIdOrAlias) => AddGroupToRoom(s, groupName, roomIdOrAlias, env)
    case RemoveRoom(groupName, roomIdOrAlias) => RemoveGroupFromRoom(s, groupName, roomIdOrAlias, env)
  }

  /** `session`: a body that raised a `UserError` is rolled back (the store is
      as before) and, since its event never fired, no hook runs; a body that
      finished is committed and the hook of its collection event runs against
      the committed store, after the calls the body made itself. */
  function Session(s: State, body: Result<Commit, UserError>, occupancy: Occupancy): (r: Outcome)
    ensures body.Failure? ==> r.state == s && r.actions == [] && r.error == Some(body.error)
    ensures body.Success? ==> r.state == body.value.state && r.error.None?
    ensures body.Success? ==> |body.value.joins| <= |r.actions| && r.actions[..|body.value.joins|] == body.value.joins
  {
    match body
    case Failure(e) => Outcome(s, [], Some(e))
    case Success(c) => Outcome(c.state, c.joins + OnChange(c.state, c.change, occupancy), None)
  }

  /** One chat command from start to finish: a rejected command changes
      nothing and calls nothing; otherwise each kind of Matrix call comes only
      from the commands whose body or hook can make it. */
  function Handle(s: State, cmd: Command, env: Env): (r: Outcome)
    ensures r.error.Some? ==> r.state == s && r.actions == []
    ensures cmd.CreateGroup? || cmd.DeleteGroup? ==> r.actions == []
    ensures forall a :: a in r.actions && a.Join? ==> cmd.AddRoom?
    ensures forall a :: a in r.actions && a.Invite? ==> cmd.AddUser? || cmd.AddRoom?
    ensures forall a :: a in r.actions && a.Kick? ==> cmd.RemoveUser? || cmd.RemoveRoom?
  {
    Session(s, Execute(s, cmd, env), env.occupancy)
  }
}

=== FILE: entity.dfy ===
/** The three persistent records of the group bot: a named group and the two
    kinds of membership edge it owns. Edges are rows keyed by (group, external
    identifier); their equality ignores everything but the external identifier. */
module Entity {
  import opened Wrappers

  /** A Matrix user id such as `@alice:example.org`. */
  type UserId = string
  /** A Matrix room id such as `!abc:example.org`. */
  type RoomId = string

  /** A user edge: the row (group_id, user_id). */
  datatype UserEdge = UserEdge(groupId: nat, userId: UserId)

  /** A room edge: the row (group_id, room_id) with the alias it was attached by, if any. */
  datatype RoomEdge = RoomEdge(groupId: nat, roomId: RoomId, alias: Option<string>)

  /** A group: store-assigned id, unique name, and the edge lists it owns
      (in relationship order, which is the order the hooks iterate them). */
  datatype Group = Group(id: nat, name: string, users: seq<UserEdge>, rooms: seq<RoomEdge>)

  /** `Group.__eq__`: groups are the same when their names are. */
  predicate SameGroup(a: Group, b: Group)
  {
    a.name == b.name
  }

  /** `User.__eq__`: user edges are the same when their user ids are. */
  predicate SameUser(a: UserEdge, b: UserEdge)
  {
    a.userId == b.userId
  }

  /** `Room.__eq__`: room edges are the same when their room ids are. */
  predicate SameRoom(a: RoomEdge, b: RoomEdge)
  {
    a.roomId == b.roomId
  }

  /** Python's `user in users` under `User.__eq__`, keyed by the user id alone. */
  predicate UserIn(users: seq<UserEdge>, userId: UserId)
  {
    exists i :: 0 <= i < |users| && users[i].userId == userId
  }

  /** Python's `room in rooms` under `Room.__eq__`, keyed by the room id alone. */
  predicate RoomIn(rooms: seq<RoomEdge>, roomId: RoomId)
  {
    exists i :: 0 <= i < |rooms| && rooms[i].roomId == roomId
  }

  predicate HasUser(g: Group, userId: UserId)
  {
    UserIn(g.users, userId)
  }

  predicate HasRoom(g: Group, roomId: RoomId)
  {
    RoomIn(g.rooms, roomId)
  }

  /** The primary key (group_id, user_id) forbids two edges with one user id in a group. */
  predicate DistinctUsers(users: seq<UserEdge>)
  {
    forall i, j :: 0 <= i < j < |users| ==> users[i].userId != users[j].userId
  }

  /** The primary key (group_id, room_id) forbids two edges with one room id in a group. */
  predicate DistinctRooms(rooms: seq<RoomEdge>)
  {
    forall i, j :: 0 <= i < j < |rooms| ==> rooms[i].roomId != rooms[j].roomId
  }

  /** A group's edges all point back at it and respect the primary keys. */
  predicate WellFormed(g: Group)
  {
    && DistinctUsers(g.users)
    && DistinctRooms(g.rooms)
    && (forall i :: 0 <= i < |g.users| ==> g.users[i].groupId == g.id)
    && (forall i :: 0 <= i < |g.rooms| ==> g.rooms[i].groupId == g.id)
  }

  /** `Room.room_alias_or_id`: the alias when it is set and non-empty
      (Python's `or` treats both `None` and `""` as false), else the room id. */
  function RoomAliasOrId(room: RoomEdge): (r: string)
    ensures room.alias.Some? && room.alias.value != [] ==> r == room.alias.value
    ensures room.alias.None? || room.alias.value == [] ==> r == room.roomId
  {
    match room.alias
    case Some(a) => if a != [] then a else room.roomId
    case None => room.roomId
  }

  /** Group equality is an equivalence relation decided by the name alone:
      changing the id or the edges of either side never changes the answer. */
  lemma GroupEqualityByName(a: Group, b: Group, c: Group, id: nat, users: seq<UserEdge>, rooms: seq<RoomEdge>)
    ensures SameGroup(a, a)
    ensures SameGroup(a, b) <==> SameGroup(b, a)
    ensures SameGroup(a, b) && SameGroup(b, c) ==> SameGroup(a, c)
    ensures SameGroup(a, b) <==> SameGroup(a.(id := id, users := users, rooms := rooms), b)
    ensures SameGroup(a, b) <==> a.name == b.name
  {
  }

  /** User-edge equality is an equivalence relation decided by the user id
      alone: the owning group does not matter, so the same user in two groups
      is "the same" user, and membership tests agree with it. */
  lemma UserEqualityByKey(a: UserEdge, b: UserEdge, c: UserEdge, groupId: nat, users: seq<UserEdge>)
    ensures SameUser(a, a)
    ensures SameUser(a, b) <==> SameUser(b, a)
    ensures SameUser(a, b) && SameUser(b, c) ==> SameUser(a, c)
    ensures SameUser(a, b) <==> SameUser(a.(groupId := groupId), b)
    ensures (exists i :: 0 <= i < |users| && SameUser(users[i], a)) <==> UserIn(users, a.userId)
  {
  }

  /** Room-edge equality is an equivalence relation decided by the room id
      alone: neither the owning group nor the alias matters. */
  lemma RoomEqualityByKey(a: RoomEdge, b: RoomEdge, c: RoomEdge, groupId: nat, alias: Option<string>, rooms: seq<RoomEdge>)
    ensures SameRoom(a, a)
    ensures SameRoom(a, b) <==> SameRoom(b, a)
    ensures SameRoom(a, b) && SameRoom(b, c) ==> SameRoom(a, c)
    ensures SameRoom(a, b) <==> SameRoom(a.(groupId := groupId, alias := alias), b)
    ensures (exists i :: 0 <= i < |rooms| && SameRoom(rooms[i], a)) <==> RoomIn(rooms, a.roomId)
  {
  }

  /** Membership in a non-empty edge list is membership of its head or its tail. */
  lemma RoomInSplit(rooms: seq<RoomEdge>)
    requires |rooms| > 0
    ensures forall roomId :: RoomIn(rooms, roomId) <==> rooms[0].roomId == roomId || RoomIn(rooms[1..], roomId)
  {
    forall roomId | RoomIn(rooms, roomId) && rooms[0].roomId != roomId
      ensures RoomIn(rooms[1..], roomId)
    {
      var i :| 0 <= i < |rooms| && rooms[i].roomId == roomId;
      assert rooms[1..][i - 1].roomId == roomId;
    }
    forall roomId | RoomIn(rooms[1..], roomId)
      ensures RoomIn(rooms, roomId)
    {
      var i :| 0 <= i < |rooms[1..]| && rooms[1..][i].roomId == roomId;
      assert rooms[i + 1].roomId == roomId;
    }
  }

  lemma UserInSplit(users: seq<UserEdge>)
    requires |users| > 0
    ensures forall userId :: UserIn(users, userId) <==> users[0].userId == userId || UserIn(users[1..], userId)
  {
    forall userId | UserIn(users, userId) && users[0].userId != userId
      ensures UserIn(users[1..], userId)
    {
      var i :| 0 <= i < |users| && users[i].userId == userId;
      assert users[1..][i - 1].userId == userId;
    }
    forall userId | UserIn(users[1..], userId)
      ensures UserIn(users, userId)
    {
      var i :| 0 <= i < |users[1..]| && users[1..][i].userId == userId;
      assert users[i + 1].userId == userId;
    }
  }

  /** Without duplicates, the tail has none either and does not hold the head's room id. */
  lemma DistinctRoomsSplit(rooms: seq<RoomEdge>)
    requires |rooms| > 0
    ensures DistinctRooms(rooms) ==> DistinctRooms(rooms[1..]) && !RoomIn(rooms[1..], rooms[0].roomId)
  {
  }

  /** Without duplicates, the tail has none either and does not hold the head's user id. */
  lemma DistinctUsersSplit(users: seq<UserEdge>)
    requires |users| > 0
    ensures DistinctUsers(users) ==> DistinctUsers(users[1..]) && !UserIn(users[1..], users[0].userId)
  {
  }
}

=== FILE: identifiers.dfy ===
/** The group bot's normalisation of user-typed identifiers into fully
    qualified Matrix identifiers, given the bot's home server domain. */
module Identifiers {
  import opened Strings

  /** `parse_user_id`: prefix `@` when missing, then append `:domain` when the
      result still has no `:` in it. */
  function ParseUserId(userId: string, domain: string): (r: string)
    ensures StartsWith(r, '@')
    ensures ':' in r
    ensures IsInfix(userId, r)
    ensures ':' in userId ==> |r| <= |userId| + 1
    ensures ':' !in userId ==> EndsWith(r, ":" + domain)
    ensures StartsWith(userId, '@') && ':' in userId ==> r == userId
    ensures r == (if StartsWith(userId, '@') then "" else "@") + userId + (if ':' in userId then "" else ":" + domain)
  {
    var prefixed := if StartsWith(userId, '@') then userId else "@" + userId;
    var r := if ':' in prefixed then prefixed else prefixed + ":" + domain;
    var pre := if StartsWith(userId, '@') then "" else "@";
    var post := if ':' in prefixed then "" else ":" + domain;
    assert prefixed == pre + userId;
    assert r == pre + userId + post;
    InfixOfWrapped(pre, userId, post);
    assert StartsWith(r, '@') by {
      if pre == "" {
        assert r[0] == userId[0];
      } else {
        assert r[0] == pre[0];
      }
    }
    assert ':' in prefixed <==> ':' in userId by {
      assert forall i :: 0 <= i < |userId| ==> prefixed[|pre| + i] == userId[i];
    }
    assert ':' in r by {
      if post != "" {
        assert r[|prefixed|] == ':';
      }
    }
    r
  }

  /** `parse_room_id_or_alias`: append `:domain` when there is no `:`; then a
      `!` prefix marks a room id, kept as is; anything else is an alias and
      gets a `#` prefix when missing. The domain is appended BEFORE the
      prefix is examined. */
  function ParseRoomIdOrAlias(roomIdOrAlias: string, domain: string): (r: string)
    ensures ':' in r
    ensures StartsWith(roomIdOrAlias, '!') <==> StartsWith(r, '!')
    ensures !StartsWith(roomIdOrAlias, '!') ==> StartsWith(r, '#')
    ensures IsInfix(roomIdOrAlias, r)
    ensures ':' !in roomIdOrAlias ==> EndsWith(r, ":" + domain)
    ensures StartsWith(roomIdOrAlias, '!') ==> r == roomIdOrAlias || r == roomIdOrAlias + ":" + domain
    ensures ':' in roomIdOrAlias && (StartsWith(roomIdOrAlias, '!') || StartsWith(roomIdOrAlias, '#')) ==> r == roomIdOrAlias
    ensures r == (if StartsWith(roomIdOrAlias, '!') || StartsWith(roomIdOrAlias, '#') then "" else "#")
                 + roomIdOrAlias + (if ':' in roomIdOrAlias then "" else ":" + domain)
  {
    var qualified := if ':' !in roomIdOrAlias then roomIdOrAlias + ":" + domain else roomIdOrAlias;
    var r := if StartsWith(qualified, '!') then qualified
             else if StartsWith(qualified, '#') then qualified
             else "#" + qualified;
    var post := if ':' in roomIdOrAlias then "" else ":" + domain;
    var pre := if StartsWith(roomIdOrAlias, '!') || StartsWith(roomIdOrAlias, '#') then "" else "#";
    assert qualified == roomIdOrAlias + post;
    assert StartsWith(qualified, '!') || StartsWith(qualified, '#') <==> pre == "" by {
      if |roomIdOrAlias| == 0 {
        assert qualified == post && post[0] == ':';
      } else {
        assert qualified[0] == roomIdOrAlias[0];
      }
    }
    assert r == pre + qualified by {
      if pre == "" {
        assert r == qualified;
      } else {
        assert r == "#" + qualified;
      }
    }
    assert r == pre + roomIdOrAlias + post;
    RoomReferenceContents(roomIdOrAlias, domain, pre, post, r);
    RoomReferenceSigil(roomIdOrAlias, domain, pre, post, r);
    r
  }

  /** A room reference wrapped as `pre + x + post`, with the prefix and
      suffix `parse_room_id_or_alias` chooses, holds `:`, contains `x` and
      ends with the domain when `x` named no server. */
  lemma RoomReferenceContents(x: string, domain: string, pre: string, post: string, r: string)
    requires pre == (if StartsWith(x, '!') || StartsWith(x, '#') then "" else "#")
    requires post == (if ':' in x then "" else ":" + domain)
    requires r == pre + x + post
    ensures ':' in r
    ensures IsInfix(x, r)
    ensures ':' !in x ==> EndsWith(r, ":" + domain)
  {
    assert ':' in post || post == "";
    WrappedFacts(pre, x, post, ':');
  }

  /** The same wrapped reference starts with `!` exactly when `x` does, and
      with `#` otherwise; a room id or a qualified alias comes back as is. */
  lemma RoomReferenceSigil(x: string, domain: string, pre: string, post: string, r: string)
    requires pre == (if StartsWith(x, '!') || StartsWith(x, '#') then "" else "#")
    requires post == (if ':' in x then "" else ":" + domain)
    requires r == pre + x + post
    ensures StartsWith(x, '!') <==> StartsWith(r, '!')
    ensures !StartsWith(x, '!') ==> StartsWith(r, '#')
    ensures StartsWith(x, '!') ==> r == x || r == x + ":" + domain
    ensures ':' in x && (StartsWith(x, '!') || StartsWith(x, '#')) ==> r == x
  {
    if pre == "" {
      assert r == x + post;
      if |x| > 0 {
        assert r[0] == x[0];
      }
    } else {
      assert r[0] == '#';
    }
  }

  /** Normalising a user id twice is the same as normalising it once, and a
      qualified `@name:server` id is left exactly as typed. */
  lemma ParseUserIdIdempotent(userId: string, domain: string)
    ensures ParseUserId(ParseUserId(userId, domain), domain) == ParseUserId(userId, domain)
    ensures StartsWith(userId, '@') && ':' in userId ==> ParseUserId(userId, domain) == userId
  {
  }

  /** Normalising a room reference twice is the same as normalising it once. */
  lemma ParseRoomIdOrAliasIdempotent(roomIdOrAlias: string, domain: string)
    ensures ParseRoomIdOrAlias(ParseRoomIdOrAlias(roomIdOrAlias, domain), domain)
         == ParseRoomIdOrAlias(roomIdOrAlias, domain)
  {
  }
}

=== FILE: properties.dfy ===
/** Properties of whole commands: the table constraints survive every
    command, a rejected command changes nothing and calls nothing, and the
    calls a successful command makes converge room membership toward the
    union of the attached groups' users without ever evicting a user who is
    still entitled through another group. */
module Properties {
  import opened Wrappers
  import opened Entity
  import opened Store
  import opened Identifiers
  import opened Reconcile
  import opened Commands

  /** After a change to its own group only, a user entitled to a room is
      entitled through some other group, provided the changed group itself
      no longer grants that room to that user. */
  lemma EntitledWithoutOwnGroup(s: State, g: Group, roomId: RoomId, userId: UserId)
    requires Valid(s)
    requires g in s.groups
    requires !(HasRoom(g, roomId) && HasUser(g, userId))
    ensures Entitled(s, roomId, userId) <==> EntitledElsewhere(s, g.name, roomId, userId)
  {
    if Entitled(s, roomId, userId) {
      var h :| h in s.groups && HasRoom(h, roomId) && HasUser(h, userId);
      if h.name == g.name {
        UniqueNameIdentifies(s, g, h);
      }
    }
  }

  lemma CreatePreservesValid(s: State, name: string)
    requires Valid(s)
    ensures Create(s, name).Success? ==> Valid(Create(s, name).value.state)
  {
    if Create(s, name).Success? {
      var groups := Create(s, name).value.state.groups;
      assert forall k :: 0 <= k < |s.groups| ==> groups[k] == s.groups[k];
    }
  }

  lemma DeletePreservesValid(s: State, name: string)
    requires Valid(s)
    ensures Delete(s, name).Success? ==> Valid(Delete(s, name).value.state)
  {
    if Delete(s, name).Success? {
      RemoveGroupKeepsValid(s, IndexOfName(s.groups, name).value);
    }
  }

  lemma AddUserPreservesValid(s: State, groupName: string, userName: string, domain: string)
    requires Valid(s)
    ensures AddUserToGroup(s, groupName, userName, domain).Success? ==>
      Valid(AddUserToGroup(s, groupName, userName, domain).value.state)
  {
    if AddUserToGroup(s, groupName, userName, domain).Success? {
      var i := IndexOfName(s.groups, groupName).value;
      var g := s.groups[i];
      var user := UserEdge(g.id, ParseUserId(userName, domain));
      var g' := g.(users := g.users + [user]);
      assert WellFormed(g') by {
        forall a, b | 0 <= a < b < |g'.users|
          ensures g'.users[a].userId != g'.users[b].userId
        {
          if b == |g.users| {
            assert g.users[a].userId != user.userId;
          }
        }
      }
      ReplaceGroupKeepsValid(s, i, g');
    }
  }

  lemma RemoveUserPreservesValid(s: State, groupName: string, userName: string, domain: string)
    requires Valid(s)
    ensures RemoveUserFromGroup(s, groupName, userName, domain).Success? ==>
      Valid(RemoveUserFromGroup(s, groupName, userName, domain).value.state)
  {
    if RemoveUserFromGroup(s, groupName, userName, domain).Success? {
      var i := IndexOfName(s.groups, groupName).value;
      var g := s.groups[i];
      var g' := g.(users := RemoveFirstUser(g.users, ParseUserId(userName, domain)));
      assert WellFormed(g') by {
        forall k | 0 <= k < |g'.users|
          ensures g'.users[k].groupId == g.id
        {
          assert g'.users[k] in g.users;
        }
      }
      ReplaceGroupKeepsValid(s, i, g');
    }
  }

  lemma AddRoomPreservesValid(s: State, groupName: string, roomIdOrAlias: string, env: Env)
    requires Valid(s)
    ensures AddGroupToRoom(s, groupName, roomIdOrAlias, env).Success? ==>
      Valid(AddGroupToRoom(s, groupName, roomIdOrAlias, env).value.state)
  {
    var r := AddGroupToRoom(s, groupName, roomIdOrAlias, env);
    if r.Success? {
      var i := IndexOfName(s.groups, groupName).value;
      var g := s.groups[i];
      var room := r.value.change.room;
      var g' := g.(rooms := g.rooms + [room]);
      assert r.value.state == s.(groups := s.groups[i := g']);
      assert WellFormed(g') by {
        forall a, b | 0 <= a < b < |g'.rooms|
          ensures g'.rooms[a].roomId != g'.rooms[b].roomId
        {
          if b == |g.rooms| {
            assert g.rooms[a].roomId != room.roomId;
          }
        }
      }
      ReplaceGroupKeepsValid(s, i, g');
    }
  }

  lemma RemoveRoomPreservesValid(s: State, groupName: string, roomIdOrAlias: string, env: Env)
    requires Valid(s)
    ensures RemoveGroupFromRoom(s, groupName, roomIdOrAlias, env).Success? ==>
      Valid(RemoveGroupFromRoom(s, groupName, roomIdOrAlias, env).value.state)
  {
    var r := RemoveGroupFromRoom(s, groupName, roomIdOrAlias, env);
    if r.Success? {
      var i := IndexOfName(s.groups, groupName).value;
      var g := s.groups[i];
      var g' := g.(rooms := RemoveFirstRoom(g.rooms, r.value.change.room.roomId));
      assert r.value.state == s.(groups := s.groups[i := g']);
      assert WellFormed(g') by {
        forall k | 0 <= k < |g'.rooms|
          ensures g'.rooms[k].groupId == g.id
        {
          assert g'.rooms[k] in g.rooms;
        }
      }
      ReplaceGroupKeepsValid(s, i, g');
    }
  }

  /** Every command keeps the store's constraints: unique names and ids, and
      no duplicate user or room edge within a group. */
  lemma ExecutePreservesValid(s: State, cmd: Command, env: Env)
    requires Valid(s)
    ensures Execute(s, cmd, env).Success? ==> Valid(Execute(s, cmd, env).value.state)
  {
    match cmd
    case CreateGroup(name) => CreatePreservesValid(s, name);
    case DeleteGroup(name) => DeletePreservesValid(s, name);
    case AddUser(groupName, userName) => AddUserPreservesValid(s, groupName, userName, env.domain);
    case RemoveUser(groupName, userName) => RemoveUserPreservesValid(s, groupName, userName, env.domain);
    case AddRoom(groupName, roomIdOrAlias) => AddRoomPreservesValid(s, groupName, roomIdOrAlias, env);
    case RemoveRoom(groupName, roomIdOrAlias) => RemoveRoomPreservesValid(s, groupName, roomIdOrAlias, env);
  }

  /** Starting from a valid store, every command, accepted or rejected,
      leaves a valid store. */
  lemma HandlePreservesValid(s: State, cmd: Command, env: Env)
    requires Valid(s)
    ensures Valid(Handle(s, cmd, env).state)
  {
    ExecutePreservesValid(s, cmd, env);
  }

  /** A rejected command leaves the store exactly as it was and makes no call
      to the Matrix server. */
  lemma RejectionChangesNothing(s: State, cmd: Command, env: Env)
    ensures Handle(s, cmd, env).error.Some? ==>
      Handle(s, cmd, env).state == s && Handle(s, cmd, env).actions == []
  {
  }

  /** Creating a group under a taken name is rejected with no effect; under a
      free name it adds exactly one group of that name. */
  lemma CreateRejectsTakenName(s: State, name: string, env: Env)
    requires Valid(s)
    ensures (exists g :: g in s.groups && g.name == name) ==>
      Handle(s, CreateGroup(name), env) == Outcome(s, [], Some(GroupExists(name)))
    ensures (forall g :: g in s.groups ==> g.name != name) ==>
      var out := Handle(s, CreateGroup(name), env);
      && out.error.None? && out.actions == []
      && GetGroupByName(out.state, name) == Some(Group(s.nextId, name, [], []))
  {
    var out := Handle(s, CreateGroup(name), env);
    if forall g :: g in s.groups ==> g.name != name {
      ExecutePreservesValid(s, CreateGroup(name), env);
      assert out.state.groups[|s.groups|] == Group(s.nextId, name, [], []);
    }
  }

  /** Deleting a group removes it and nothing else, and makes no call to the
      Matrix server: the cascade removes its edges without firing the
      collection listeners, so nobody is kicked. */
  lemma DeleteMakesNoCalls(s: State, name: string, env: Env)
    requires Valid(s)
    ensures Handle(s, DeleteGroup(name), env).actions == []
    ensures Handle(s, DeleteGroup(name), env).error.None? ==>
      forall g :: g in Handle(s, DeleteGroup(name), env).state.groups <==> g in s.groups && g.name != name
  {
  }

  /** Whatever the command, a session run on a valid store never makes the
      same Matrix call twice: the hooks walk the changed group's edge lists,
      which hold no id twice, and the one join is not an invite. */
  lemma HandleMakesNoRepeats(s: State, cmd: Command, env: Env)
    requires Valid(s)
    ensures NoRepeats(Handle(s, cmd, env).actions)
  {
    var body := Execute(s, cmd, env);
    ExecutePreservesValid(s, cmd, env);
    if body.Success? {
      var c := body.value;
      match cmd
      case CreateGroup(_) =>
      case DeleteGroup(_) =>
      case AddUser(groupName, _) =>
        var i := IndexOfName(s.groups, groupName).value;
        assert WellFormed(c.state.groups[i]);
      case RemoveUser(groupName, _) =>
        var i := IndexOfName(s.groups, groupName).value;
        assert WellFormed(c.state.groups[i]);
      case AddRoom(groupName, _) =>
        var i := IndexOfName(s.groups, groupName).value;
        assert WellFormed(c.state.groups[i]);
        var invites := OnChange(c.state, c.change, env.occupancy);
        if c.joins != [] {
          NoRepeatsCons(c.joins[0], invites);
        }
      case RemoveRoom(groupName, _) =>
        var i := IndexOfName(s.groups, groupName).value;
        assert WellFormed(c.state.groups[i]);
    }
  }

  /** Adding a user to a group invites them into exactly those rooms of the
      group whose joined members do not include them; every invite is for a
      room the user is now entitled to. */
  lemma AddUserInvitesExactly(s: State, groupName: string, userName: string, env: Env)
    requires Valid(s)
    requires Handle(s, AddUser(groupName, userName), env).error.None?
    ensures
      var out := Handle(s, AddUser(groupName, userName), env);
      var userId := ParseUserId(userName, env.domain);
      var g := GetGroupByName(s, groupName).value;
      && (forall a :: a in out.actions ==> a.Invite? && a.user == userId && Entitled(out.state, a.room, userId))
      && (forall roomId :: Invite(roomId, userId) in out.actions <==>
            HasRoom(g, roomId) && userId !in JoinedMembers(env.occupancy, roomId))
    ensures NoRepeats(Handle(s, AddUser(groupName, userName), env).actions)
  {
    HandleMakesNoRepeats(s, AddUser(groupName, userName), env);
    var i := IndexOfName(s.groups, groupName).value;
    var g' := Execute(s, AddUser(groupName, userName), env).value.state.groups[i];
    var userId := ParseUserId(userName, env.domain);
    assert HasUser(g', userId) by {
      assert g'.users[|g'.users| - 1].userId == userId;
    }
    assert g' in Handle(s, AddUser(groupName, userName), env).state.groups;
  }

  /** Removing a user from a group kicks them from exactly those rooms of the
      group that no remaining group still grants them. */
  lemma RemoveUserKicksExactly(s: State, groupName: string, userName: string, env: Env)
    requires Valid(s)
    requires Handle(s, RemoveUser(groupName, userName), env).error.None?
    ensures
      var out := Handle(s, RemoveUser(groupName, userName), env);
      var userId := ParseUserId(userName, env.domain);
      var g := GetGroupByName(s, groupName).value;
      && (forall a :: a in out.actions ==> a.Kick? && a.user == userId)
      && (forall roomId :: Kick(roomId, userId) in out.actions <==>
            HasRoom(g, roomId) && !Entitled(out.state, roomId, userId))
    ensures NoRepeats(Handle(s, RemoveUser(groupName, userName), env).actions)
  {
    HandleMakesNoRepeats(s, RemoveUser(groupName, userName), env);
    var out := Handle(s, RemoveUser(groupName, userName), env);
    var i := IndexOfName(s.groups, groupName).value;
    var g := s.groups[i];
    var g' := out.state.groups[i];
    var userId := ParseUserId(userName, env.domain);
    ExecutePreservesValid(s, RemoveUser(groupName, userName), env);
    forall roomId
      ensures Entitled(out.state, roomId, userId) <==> EntitledElsewhere(out.state, g.name, roomId, userId)
    {
      EntitledWithoutOwnGroup(out.state, g', roomId, userId);
    }
  }

  /** Attaching a room to a group first joins the room when the bot is not in
      it, then invites exactly those group members it does not list as joined. */
  lemma AddRoomInvitesExactly(s: State, groupName: string, roomIdOrAlias: string, env: Env)
    requires Valid(s)
    requires Handle(s, AddRoom(groupName, roomIdOrAlias), env).error.None?
    ensures
      var out := Handle(s, AddRoom(groupName, roomIdOrAlias), env);
      var resolved := ResolveRoom(ParseRoomIdOrAlias(roomIdOrAlias, env.domain), env.aliases);
      var g := GetGroupByName(s, groupName).value;
      && resolved.Success?
      && (Join(resolved.value.roomId) in out.actions <==> resolved.value.roomId !in env.joinedRooms)
      && (forall a :: a in out.actions && !a.Join? ==>
            a.Invite? && a.room == resolved.value.roomId && Entitled(out.state, a.room, a.user))
      && (forall userId :: Invite(resolved.value.roomId, userId) in out.actions <==>
            HasUser(g, userId) && userId !in JoinedMembers(env.occupancy, resolved.value.roomId))
    ensures NoRepeats(Handle(s, AddRoom(groupName, roomIdOrAlias), env).actions)
  {
    HandleMakesNoRepeats(s, AddRoom(groupName, roomIdOrAlias), env);
    var i := IndexOfName(s.groups, groupName).value;
    var body := AddGroupToRoom(s, groupName, roomIdOrAlias, env);
    assert Execute(s, AddRoom(groupName, roomIdOrAlias), env) == body;
    var c := body.value;
    var room := c.change.room;
    var g' := c.change.group;
    var invites := InviteUsersToRoom(g'.users, room, env.occupancy);
    var out := Handle(s, AddRoom(groupName, roomIdOrAlias), env);
    assert out.actions == c.joins + invites;
    assert out.state.groups[i] == g';
    assert HasRoom(g', room.roomId) by {
      assert g'.rooms[|g'.rooms| - 1].roomId == room.roomId;
    }
    forall a | a in invites
      ensures Entitled(out.state, a.room, a.user)
    {
      assert HasUser(g', a.user);
    }
  }

  /** Detaching a room from a group kicks exactly those group members whom no
      remaining group still grants that room. */
  lemma RemoveRoomKicksExactly(s: State, groupName: string, roomIdOrAlias: string, env: Env)
    requires Valid(s)
    requires Handle(s, RemoveRoom(groupName, roomIdOrAlias), env).error.None?
    ensures
      var out := Handle(s, RemoveRoom(groupName, roomIdOrAlias), env);
      var resolved := ResolveRoom(ParseRoomIdOrAlias(roomIdOrAlias, env.domain), env.aliases);
      var g := GetGroupByName(s, groupName).value;
      && resolved.Success?
      && (forall a :: a in out.actions ==> a.Kick? && a.room == resolved.value.roomId)
      && (forall userId :: Kick(resolved.value.roomId, userId) in out.actions <==>
            HasUser(g, userId) && !Entitled(out.state, resolved.value.roomId, userId))
    ensures NoRepeats(Handle(s, RemoveRoom(groupName, roomIdOrAlias), env).actions)
  {
    HandleMakesNoRepeats(s, RemoveRoom(groupName, roomIdOrAlias), env);
    var out := Handle(s, RemoveRoom(groupName, roomIdOrAlias), env);
    var i := IndexOfName(s.groups, groupName).value;
    var c := Execute(s, RemoveRoom(groupName, roomIdOrAlias), env).value;
    var g := s.groups[i];
    var g' := c.state.groups[i];
    var roomId := c.change.room.roomId;
    ExecutePreservesValid(s, RemoveRoom(groupName, roomIdOrAlias), env);
    forall userId
      ensures Entitled(out.state, roomId, userId) <==> EntitledElsewhere(out.state, g.name, roomId, userId)
    {
      EntitledWithoutOwnGroup(out.state, g', roomId, userId);
    }
  }

  /** No command ever kicks a user from a room some group still grants them,
      and every invite is for a room the user is entitled to and not yet in. */
  lemma NeverKickEntitled(s: State, cmd: Command, env: Env)
    requires Valid(s)
    ensures var out := Handle(s, cmd, env);
      forall a :: a in out.actions && a.Kick? ==> !Entitled(out.state, a.room, a.user)
    ensures var out := Handle(s, cmd, env);
      forall a :: a in out.actions && a.Invite? ==>
        Entitled(out.state, a.room, a.user) && a.user !in JoinedMembers(env.occupancy, a.room)
  {
    var out := Handle(s, cmd, env);
    if out.error.None? {
      match cmd
      case CreateGroup(name) =>
      case DeleteGroup(name) =>
      case AddUser(groupName, userName) =>
        AddUserInvitesExactly(s, groupName, userName, env);
      case RemoveUser(groupName, userName) =>
        RemoveUserKicksExactly(s, groupName, userName, env);
      case AddRoom(groupName, roomIdOrAlias) =>
        AddRoomInvitesExactly(s, groupName, roomIdOrAlias, env);
      case RemoveRoom(groupName, roomIdOrAlias) =>
        RemoveRoomKicksExactly(s, groupName, roomIdOrAlias, env);
    }
  }

  /** The kick hook for a removed user computes the same calls whether its
      `find_groups_by_room` reads the store before or after the command's
      change is committed, since it never consults the changed group. */
  lemma {:induction false} KickHookSameBeforeAndAfter(s: State, s': State, group: Group, rooms: seq<RoomEdge>, user: UserEdge)
    requires forall h: Group :: h.name != group.name ==> (h in s.groups <==> h in s'.groups)
    ensures RemoveUserFromRooms(s, group, rooms, user) == RemoveUserFromRooms(s', group, rooms, user)
    decreases |rooms|
  {
    if |rooms| > 0 {
      KickHookSameBeforeAndAfter(s, s', group, rooms[1..], user);
      OtherGrantIsEntitlement(s, group, rooms[0], user);
      OtherGrantIsEntitlement(s', group, rooms[0], user);
      KickDecisionIgnoresOwnGroup(s, s', group.name, rooms[0].roomId, user.userId);
    }
  }

  /** The same for the kick hook of a detached room. */
  lemma {:induction false} RoomKickHookSameBeforeAndAfter(s: State, s': State, group: Group, users: seq<UserEdge>, room: RoomEdge)
    requires forall h: Group :: h.name != group.name ==> (h in s.groups <==> h in s'.groups)
    ensures RemoveUsersFromRoom(s, group, users, room) == RemoveUsersFromRoom(s', group, users, room)
    decreases |users|
  {
    if |users| > 0 {
      RoomKickHookSameBeforeAndAfter(s, s', group, users[1..], room);
      OtherGrantIsEntitlement(s, group, room, users[0]);
      OtherGrantIsEntitlement(s', group, room, users[0]);
      KickDecisionIgnoresOwnGroup(s, s', group.name, room.roomId, users[0].userId);
    }
  }

  /** A successful command's hook makes the same calls against the store
      before the commit as against the committed store. */
  lemma HooksSameBeforeAndAfterCommit(s: State, cmd: Command, env: Env)
    requires Execute(s, cmd, env).Success?
    ensures var c := Execute(s, cmd, env).value;
      OnChange(s, c.change, env.occupancy) == OnChange(c.state, c.change, env.occupancy)
  {
    var c := Execute(s, cmd, env).value;
    match cmd
    case CreateGroup(_) =>
    case DeleteGroup(_) =>
    case AddUser(_, _) =>
    case AddRoom(_, _) =>
    case RemoveUser(groupName, userName) =>
      var i := IndexOfName(s.groups, groupName).value;
      var g' := c.state.groups[i];
      ReplaceGroupKeepsOthers(s, i, g');
      KickHookSameBeforeAndAfter(s, c.state, g', g'.rooms, c.change.user);
    case RemoveRoom(groupName, roomIdOrAlias) =>
      var i := IndexOfName(s.groups, groupName).value;
      var g' := c.state.groups[i];
      ReplaceGroupKeepsOthers(s, i, g');
      RoomKickHookSameBeforeAndAfter(s, c.state, g', g'.users, c.change.room);
  }

  /** The example of two groups sharing one room: `eng` holds alice and bob,
      `ops` holds bob, and both are attached to the same room. */
  const ExampleDomain := "example.org"
  const Dev := "!dev:example.org"
  const Alice := "@alice:example.org"
  const Bob := "@bob:example.org"
  const Eng := Group(1, "eng", [UserEdge(1, Alice), UserEdge(1, Bob)], [RoomEdge(1, Dev, None)])
  const Ops := Group(2, "ops", [UserEdge(2, Bob)], [RoomEdge(2, Dev, None)])
  const ExampleEnv := Env(ExampleDomain, map[], {Dev}, map[])

  lemma ExampleParsesBob(userName: string, domain: string)
    requires userName == "bob" && domain == ExampleDomain
    ensures ParseUserId(userName, domain) == Bob
  {
    assert userName[0] == 'b' && ':' !in userName;
    assert "@" + userName + ":" + domain == Bob;
  }

  /** A user removal from the group at `i` that holds the user commits the group with its edge list cut down to `users'`. */
  lemma RemoveUserFromGroupAt(s: State, groupName: string, userName: string, domain: string, userId: UserId, i: nat, users': seq<UserEdge>)
    requires ParseUserId(userName, domain) == userId
    requires IndexOfName(s.groups, groupName) == Some(i)
    requires HasUser(s.groups[i], userId)
    requires RemoveFirstUser(s.groups[i].users, userId) == users'
    ensures var g' := s.groups[i].(users := users');
      RemoveUserFromGroup(s, groupName, userName, domain)
        == Success(Commit(s.(groups := s.groups[i := g']), [], UserRemoved(g', UserEdge(s.groups[i].id, userId))))
  {
  }

  /** In the example, removing bob from the group at `i` that holds him
      commits that group with its edge list cut down to `users'`. */
  lemma RemoveBobAt(s: State, groupName: string, userName: string, domain: string, i: nat, users': seq<UserEdge>)
    requires userName == "bob" && domain == ExampleDomain
    requires IndexOfName(s.groups, groupName) == Some(i)
    requires HasUser(s.groups[i], Bob)
    requires RemoveFirstUser(s.groups[i].users, Bob) == users'
    ensures var g' := s.groups[i].(users := users');
      RemoveUserFromGroup(s, groupName, userName, domain)
        == Success(Commit(s.(groups := s.groups[i := g']), [], UserRemoved(g', UserEdge(s.groups[i].id, Bob))))
  {
    ExampleParsesBob(userName, domain);
    RemoveUserFromGroupAt(s, groupName, userName, domain, Bob, i, users');
  }

  /** Removing the id of the second of two edges, when the first has another id, leaves the first. */
  lemma RemoveSecondOfTwo(a: UserEdge, b: UserEdge, userId: UserId)
    requires a.userId != userId && b.userId == userId
    ensures UserIn([a, b], userId) && RemoveFirstUser([a, b], userId) == [a]
  {
    assert [a, b][1].userId == userId;
    var r := RemoveFirstUser([a, b], userId);
    assert FirstUserIndex([a, b], userId) == 1;
    assert r[0] == a;
  }

  /** Removing the id of the only edge leaves nothing. */
  lemma RemoveOnlyEdge(b: UserEdge, userId: UserId)
    requires b.userId == userId
    ensures UserIn([b], userId) && RemoveFirstUser([b], userId) == []
  {
    assert [b][0].userId == userId;
  }

  /** The command step of the first removal: only bob's `eng` edge goes. */
  lemma ExampleRemoveFromEng(s: State, userName: string, domain: string)
    requires s == State([Eng, Ops], 3)
    requires userName == "bob" && domain == ExampleDomain
    ensures RemoveUserFromGroup(s, "eng", userName, domain)
         == Success(Commit(State([Eng.(users := [UserEdge(1, Alice)]), Ops], 3), [],
                           UserRemoved(Eng.(users := [UserEdge(1, Alice)]), UserEdge(1, Bob))))
  {
    assert IndexOfName(s.groups, "eng") == Some(0);
    RemoveSecondOfTwo(UserEdge(1, Alice), UserEdge(1, Bob), Bob);
    RemoveBobAt(s, "eng", userName, domain, 0, [UserEdge(1, Alice)]);
    var eng' := Eng.(users := [UserEdge(1, Alice)]);
    assert s.groups[0 := eng'] == [eng', Ops];
  }

  /** The command step of the second removal: bob's `ops` edge goes. */
  lemma ExampleRemoveFromOps(s: State, userName: string, domain: string)
    requires s == State([Eng.(users := [UserEdge(1, Alice)]), Ops], 3)
    requires userName == "bob" && domain == ExampleDomain
    ensures
      var eng' := Eng.(users := [UserEdge(1, Alice)]);
      RemoveUserFromGroup(s, "ops", userName, domain)
        == Success(Commit(State([eng', Ops.(users := [])], 3), [], UserRemoved(Ops.(users := []), UserEdge(2, Bob))))
  {
    var eng' := Eng.(users := [UserEdge(1, Alice)]);
    assert IndexOfName(s.groups, "ops") == Some(1);
    RemoveOnlyEdge(UserEdge(2, Bob), Bob);
    RemoveBobAt(s, "ops", userName, domain, 1, []);
    assert s.groups[1 := Ops.(users := [])] == [eng', Ops.(users := [])];
  }

  /** `Handle` of a user removal is the session around its command body. */
  lemma HandleRemoveUser(s: State, groupName: string, userName: string, env: Env)
    ensures Handle(s, RemoveUser(groupName, userName), env)
         == Session(s, RemoveUserFromGroup(s, groupName, userName, env.domain), env.occupancy)
  {
    assert Execute(s, RemoveUser(groupName, userName), env) == RemoveUserFromGroup(s, groupName, userName, env.domain);
  }

  /** A removed user of a one-room group whom another group still grants that room is kicked from nothing. */
  lemma NoKickWhenGrantedElsewhere(s: State, group: Group, user: UserEdge)
    requires |group.rooms| == 1
    requires EntitledElsewhere(s, group.name, group.rooms[0].roomId, user.userId)
    ensures RemoveUserFromRooms(s, group, group.rooms, user) == []
  {
  }

  /** A removed user of a one-room group whom no other group grants that room is kicked from it once. */
  lemma OneKickWhenGrantedNowhere(s: State, group: Group, user: UserEdge)
    requires |group.rooms| == 1
    requires !EntitledElsewhere(s, group.name, group.rooms[0].roomId, user.userId)
    ensures RemoveUserFromRooms(s, group, group.rooms, user) == [Kick(group.rooms[0].roomId, user.userId)]
  {
    var kicks := RemoveUserFromRooms(s, group, group.rooms, user);
    assert RoomIn(group.rooms, group.rooms[0].roomId);
    assert Kick(group.rooms[0].roomId, user.userId) in kicks;
  }

  /** A committed user removal makes exactly the calls of the remove-user hook. */
  lemma SessionOfUserRemoval(s: State, s': State, group: Group, user: UserEdge, occupancy: Occupancy)
    ensures Session(s, Success(Commit(s', [], UserRemoved(group, user))), occupancy)
         == Outcome(s', RemoveUserFromRooms(s', group, group.rooms, user), None)
  {
    assert [] + RemoveUserFromRooms(s', group, group.rooms, user) == RemoveUserFromRooms(s', group, group.rooms, user);
  }

  /** After the first removal, `ops` still grants bob the shared room. */
  lemma ExampleOpsStillGrantsBob(s': State)
    requires s' == State([Eng.(users := [UserEdge(1, Alice)]), Ops], 3)
    ensures EntitledElsewhere(s', "eng", Dev, Bob)
  {
    assert Ops in s'.groups;
    assert Ops.rooms[0].roomId == Dev && Ops.users[0].userId == Bob;
  }

  /** After the second removal, no group other than `ops` grants bob the room. */
  lemma ExampleNoGroupGrantsBob(s': State)
    requires s' == State([Eng.(users := [UserEdge(1, Alice)]), Ops.(users := [])], 3)
    ensures !EntitledElsewhere(s', "ops", Dev, Bob)
  {
    forall h | h in s'.groups && h.name != "ops"
      ensures !HasUser(h, Bob)
    {
      assert h == s'.groups[0];
      assert s'.groups[0].users[0].userId != Bob;
    }
  }

  /** Removing bob from `eng` kicks nobody, since `ops` still grants him the room. */
  lemma UnionExampleKeepsShared(s: State)
    requires s == State([Eng, Ops], 3)
    ensures Handle(s, RemoveUser("eng", "bob"), ExampleEnv)
         == Outcome(State([Eng.(users := [UserEdge(1, Alice)]), Ops], 3), [], None)
  {
    HandleRemoveUser(s, "eng", "bob", ExampleEnv);
    ExampleRemoveFromEng(s, "bob", ExampleDomain);
    var eng' := Eng.(users := [UserEdge(1, Alice)]);
    var s' := State([eng', Ops], 3);
    ExampleOpsStillGrantsBob(s');
    NoKickWhenGrantedElsewhere(s', eng', UserEdge(1, Bob));
    SessionOfUserRemoval(s, s', eng', UserEdge(1, Bob), ExampleEnv.occupancy);
  }

  /** Removing bob from `ops` afterwards kicks him from the room, once. */
  lemma UnionExampleRevokesLast(s: State)
    requires s == State([Eng.(users := [UserEdge(1, Alice)]), Ops], 3)
    ensures
      var eng' := Eng.(users := [UserEdge(1, Alice)]);
      Handle(s, RemoveUser("ops", "bob"), ExampleEnv)
        == Outcome(State([eng', Ops.(users := [])], 3), [Kick(Dev, Bob)], None)
  {
    var eng' := Eng.(users := [UserEdge(1, Alice)]);
    HandleRemoveUser(s, "ops", "bob", ExampleEnv);
    ExampleRemoveFromOps(s, "bob", ExampleDomain);
    var ops' := Ops.(users := []);
    var s' := State([eng', ops'], 3);
    ExampleNoGroupGrantsBob(s');
    OneKickWhenGrantedNowhere(s', ops', UserEdge(2, Bob));
    SessionOfUserRemoval(s, s', ops', UserEdge(2, Bob), ExampleEnv.occupancy);
  }
}

=== FILE: reconcile.dfy ===
/** The four reconciliation hooks, registered on appends to and removals from
    a group's user and room lists. Each turns one collection change into the
    invite or kick calls the bot makes against the Matrix server, given a
    snapshot of room occupancy and the store it queries. */
module Reconcile {
  import opened Entity
  import opened Store

  /** A call against the Matrix client. */
  datatype Action =
    | Join(room: RoomId)                  // join_room_by_id
    | Invite(room: RoomId, user: UserId)  // invite_user
    | Kick(room: RoomId, user: UserId)    // kick_user

  /** The collection event that fired while a command ran. `group` is the
      group object the listener receives; the edge is the appended or removed item. */
  datatype Change =
    | NoChange
    | UserAppended(group: Group, user: UserEdge)
    | UserRemoved(group: Group, user: UserEdge)
    | RoomAppended(group: Group, room: RoomEdge)
    | RoomRemoved(group: Group, room: RoomEdge)

  /** What `get_joined_members` answers, per room, at the time of the hook. */
  type Occupancy = map<RoomId, set<UserId>>

  /** The joined members of a room; a room the snapshot does not list has none. */
  function JoinedMembers(occupancy: Occupancy, roomId: RoomId): set<UserId>
  {
    if roomId in occupancy then occupancy[roomId] else {}
  }

  /** Some group attaches room `roomId` and holds user `userId`: the user
      belongs in the room (desired membership is the union over groups). */
  predicate Entitled(s: State, roomId: RoomId, userId: UserId)
  {
    exists h :: h in s.groups && HasRoom(h, roomId) && HasUser(h, userId)
  }

  /** Some group other than the one called `name` attaches room `roomId` and
      holds user `userId`: the user keeps access to the room through it. */
  predicate EntitledElsewhere(s: State, name: string, roomId: RoomId, userId: UserId)
  {
    exists h :: h in s.groups && h.name != name && HasRoom(h, roomId) && HasUser(h, userId)
  }

  /** The hooks' `any(group != other_group and user in other_group.users ...)`. */
  predicate AnyOtherHoldsUser(others: seq<Group>, group: Group, user: UserEdge)
  {
    exists i :: 0 <= i < |others| && !SameGroup(group, others[i]) && UserIn(others[i].users, user.userId)
  }

  /** Scanning `find_groups_by_room(room)` for another group holding the user
      decides exactly `EntitledElsewhere`. */
  lemma OtherGrantIsEntitlement(s: State, group: Group, room: RoomEdge, user: UserEdge)
    ensures AnyOtherHoldsUser(FindGroupsByRoom(s, room), group, user)
        <==> EntitledElsewhere(s, group.name, room.roomId, user.userId)
  {
    var others := FindGroupsByRoom(s, room);
    if EntitledElsewhere(s, group.name, room.roomId, user.userId) {
      var h :| h in s.groups && h.name != group.name && HasRoom(h, room.roomId) && HasUser(h, user.userId);
      assert h in others;
      var i :| 0 <= i < |others| && others[i] == h;
    }
  }

  /** The kick decision reads the store only through groups other than the
      modified one, so it is the same whether it reads the store before or
      after the command's change to that group is committed. */
  lemma KickDecisionIgnoresOwnGroup(s: State, s': State, name: string, roomId: RoomId, userId: UserId)
    requires forall h: Group :: h.name != name ==> (h in s.groups <==> h in s'.groups)
    ensures EntitledElsewhere(s, name, roomId, userId) <==> EntitledElsewhere(s', name, roomId, userId)
  {
  }

  /** No client call appears twice in a list of calls: none repeats a later one. */
  predicate NoRepeats(r: seq<Action>)
  {
    |r| == 0 || (r[0] !in r[1..] && NoRepeats(r[1..]))
  }

  /** A call that is not among calls without repeats can go in front of them. */
  lemma NoRepeatsCons(x: Action, r: seq<Action>)
    requires x !in r && NoRepeats(r)
    ensures NoRepeats([x] + r)
  {
    assert ([x] + r)[1..] == r;
  }

  /** `NoRepeats` is pairwise distinctness of the calls. */
  lemma {:induction false} NoRepeatsIsPairwiseDistinct(r: seq<Action>)
    ensures NoRepeats(r) <==> forall i, j :: 0 <= i < j < |r| ==> r[i] != r[j]
  {
    if |r| > 0 {
      NoRepeatsIsPairwiseDistinct(r[1..]);
      if NoRepeats(r) {
        forall i, j | 0 <= i < j < |r|
          ensures r[i] != r[j]
        {
          assert r[j] == r[1..][j - 1];
          if i > 0 {
            assert r[i] == r[1..][i - 1];
          }
        }
      }
      if forall i, j :: 0 <= i < j < |r| ==> r[i] != r[j] {
        forall i, j | 0 <= i < j < |r[1..]|
          ensures r[1..][i] != r[1..][j]
        {
          assert r[1..][i] == r[i + 1] && r[1..][j] == r[j + 1];
        }
      }
    }
  }

  /** `invite_user_to_group_rooms`, over the group's room list: for each room
      in order, invite the user unless already a joined member. */
  function InviteUserToRooms(rooms: seq<RoomEdge>, user: UserEdge, occupancy: Occupancy): (r: seq<Action>)
    ensures |r| <= |rooms|
    ensures forall a :: a in r ==> a.Invite? && a.user == user.userId && RoomIn(rooms, a.room)
    ensures forall roomId ::
      Invite(roomId, user.userId) in r <==> RoomIn(rooms, roomId) && user.userId !in JoinedMembers(occupancy, roomId)
    ensures DistinctRooms(rooms) ==> NoRepeats(r)
  {
    if |rooms| == 0 then []
    else
      var rest := InviteUserToRooms(rooms[1..], user, occupancy);
      RoomInSplit(rooms);
      DistinctRoomsSplit(rooms);
      if user.userId in JoinedMembers(occupancy, rooms[0].roomId) then rest
      else [Invite(rooms[0].roomId, user.userId)] + rest
  }

  /** `remove_user_from_group_rooms`, over the group's room list: for each
      room in order, kick the user unless another group attached to that room
      holds the user. */
  function RemoveUserFromRooms(s: State, group: Group, rooms: seq<RoomEdge>, user: UserEdge): (r: seq<Action>)
    ensures |r| <= |rooms|
    ensures forall a :: a in r ==> a.Kick? && a.user == user.userId && RoomIn(rooms, a.room)
    ensures forall roomId ::
      Kick(roomId, user.userId) in r <==> RoomIn(rooms, roomId) && !EntitledElsewhere(s, group.name, roomId, user.userId)
    ensures DistinctRooms(rooms) ==> NoRepeats(r)
  {
    if |rooms| == 0 then []
    else
      var rest := RemoveUserFromRooms(s, group, rooms[1..], user);
      RoomInSplit(rooms);
      DistinctRoomsSplit(rooms);
      OtherGrantIsEntitlement(s, group, rooms[0], user);
      if AnyOtherHoldsUser(FindGroupsByRoom(s, rooms[0]), group, user) then rest
      else [Kick(rooms[0].roomId, user.userId)] + rest
  }

  /** `invite_group_users_to_room`, over the group's user list: for each user
      in order, invite them into the room unless already a joined member. */
  function InviteUsersToRoom(users: seq<UserEdge>, room: RoomEdge, occupancy: Occupancy): (r: seq<Action>)
    ensures |r| <= |users|
    ensures forall a :: a in r ==> a.Invite? && a.room == room.roomId && UserIn(users, a.user)
    ensures forall userId ::
      Invite(room.roomId, userId) in r <==> UserIn(users, userId) && userId !in JoinedMembers(occupancy, room.roomId)
    ensures DistinctUsers(users) ==> NoRepeats(r)
  {
    if |users| == 0 then []
    else
      var rest := InviteUsersToRoom(users[1..], room, occupancy);
      UserInSplit(users);
      DistinctUsersSplit(users);
      if users[0].userId in JoinedMembers(occupancy, room.roomId) then rest
      else [Invite(room.roomId, users[0].userId)] + rest
  }

  /** `remove_group_users_from_room`, over the group's user list: for each
      user in order, kick them from the room unless another group attached to
      the room holds them. */
  function RemoveUsersFromRoom(s: State, group: Group, users: seq<UserEdge>, room: RoomEdge): (r: seq<Action>)
    ensures |r| <= |users|
    ensures forall a :: a in r ==> a.Kick? && a.room == room.roomId && UserIn(users, a.user)
    ensures forall userId ::
      Kick(room.roomId, userId) in r <==> UserIn(users, userId) && !EntitledElsewhere(s, group.name, room.roomId, userId)
    ensures DistinctUsers(users) ==> NoRepeats(r)
  {
    if |users| == 0 then []
    else
      var rest := RemoveUsersFromRoom(s, group, users[1..], room);
      UserInSplit(users);
      DistinctUsersSplit(users);
      OtherGrantIsEntitlement(s, group, room, users[0]);
      if AnyOtherHoldsUser(FindGroupsByRoom(s, room), group, users[0]) then rest
      else [Kick(room.roomId, users[0].userId)] + rest
  }

  /** The four listeners: each collection event runs its hook; creating or
      deleting a group fires none. Kick decisions query the store `s`. */
  function OnChange(s: State, change: Change, occupancy: Occupancy): (r: seq<Action>)
    ensures change.NoChange? ==> r == []
    ensures forall a :: a in r ==> !a.Join?
    ensures forall a :: a in r && a.Invite? ==> change.UserAppended? || change.RoomAppended?
    ensures forall a :: a in r && a.Kick? ==> change.UserRemoved? || change.RoomRemoved?
  {
    match change
    case NoChange => []
    case UserAppended(group, user) => InviteUserToRooms(group.rooms, user, occupancy)
    case UserRemoved(group, user) => RemoveUserFromRooms(s, group, group.rooms, user)
    case RoomAppended(group, room) => InviteUsersToRoom(group.users, room, occupancy)
    case RoomRemoved(group, room) => RemoveUsersFromRoom(s, group, group.users, room)
  }
}

=== FILE: roombot.dfy ===
/** The room bot's identifier normalisation. Its user-id parser is the same
    text as the group bot's; its alias parser adds the `#` prefix BEFORE
    looking for a domain, and has no room-id case. */
module Roombot {
  import opened Strings
  import Identifiers

  /** `parse_user_id` of the room bot. */
  function ParseUserId(userId: string, domain: string): (r: string)
    ensures StartsWith(r, '@')
    ensures ':' in r
    ensures IsInfix(userId, r)
    ensures StartsWith(userId, '@') && ':' in userId ==> r == userId
    ensures r == (if StartsWith(userId, '@') then "" else "@") + userId + (if ':' in userId then "" else ":" + domain)
  {
    var prefixed := if StartsWith(userId, '@') then userId else "@" + userId;
    var r := if ':' in prefixed then prefixed else prefixed + ":" + domain;
    var pre := if StartsWith(userId, '@') then "" else "@";
    var post := if ':' in prefixed then "" else ":" + domain;
    assert prefixed == pre + userId;
    assert r == pre + userId + post;
    InfixOfWrapped(pre, userId, post);
    assert StartsWith(r, '@') by {
      if pre == "" {
        assert r[0] == userId[0];
      } else {
        assert r[0] == pre[0];
      }
    }
    assert ':' in prefixed <==> ':' in userId by {
      assert forall i :: 0 <= i < |userId| ==> prefixed[|pre| + i] == userId[i];
    }
    assert ':' in r by {
      if post != "" {
        assert r[|prefixed|] == ':';
      }
    }
    r
  }

  /** `parse_room_alias`: prefix `#` when missing, then append `:domain` when
      the result still has no `:` in it. */
  function ParseRoomAlias(roomAlias: string, domain: string): (r: string)
    ensures StartsWith(r, '#')
    ensures ':' in r
    ensures IsInfix(roomAlias, r)
    ensures ':' !in roomAlias ==> EndsWith(r, ":" + domain)
    ensures StartsWith(roomAlias, '#') && ':' in roomAlias ==> r == roomAlias
    ensures r == (if StartsWith(roomAlias, '#') then "" else "#") + roomAlias + (if ':' in roomAlias then "" else ":" + domain)
  {
    var prefixed := if StartsWith(roomAlias, '#') then roomAlias else "#" + roomAlias;
    var r := if ':' in prefixed then prefixed else prefixed + ":" + domain;
    var pre := if StartsWith(roomAlias, '#') then "" else "#";
    var post := if ':' in prefixed then "" else ":" + domain;
    assert prefixed == pre + roomAlias;
    assert r == pre + roomAlias + post;
    InfixOfWrapped(pre, roomAlias, post);
    assert StartsWith(r, '#') by {
      if pre == "" {
        assert r[0] == roomAlias[0];
      } else {
        assert r[0] == pre[0];
      }
    }
    assert ':' in prefixed <==> ':' in roomAlias by {
      assert forall i :: 0 <= i < |roomAlias| ==> prefixed[|pre| + i] == roomAlias[i];
    }
    assert ':' in r by {
      if post != "" {
        assert r[|prefixed|] == ':';
      }
    }
    r
  }

  /** The two bots normalise user ids identically. */
  lemma UserIdAgreesWithGroupBot(userId: string, domain: string)
    ensures ParseUserId(userId, domain) == Identifiers.ParseUserId(userId, domain)
  {
  }

  /** The room bot's user-id parser is idempotent. */
  lemma ParseUserIdIdempotent(userId: string, domain: string)
    ensures ParseUserId(ParseUserId(userId, domain), domain) == ParseUserId(userId, domain)
  {
  }

  /** The alias parser is idempotent and fixes every qualified `#alias:server`. */
  lemma ParseRoomAliasIdempotent(roomAlias: string, domain: string)
    ensures ParseRoomAlias(ParseRoomAlias(roomAlias, domain), domain) == ParseRoomAlias(roomAlias, domain)
  {
  }

  /** An input that names its server is only given the missing `#`. */
  lemma QualifiedAliasAgrees(s: string, domain: string)
    requires !StartsWith(s, '!') && ':' in s
    ensures ParseRoomAlias(s, domain) == (if StartsWith(s, '#') then s else "#" + s)
    ensures ParseRoomAlias(s, domain) == Identifiers.ParseRoomIdOrAlias(s, domain)
  {
    assert ':' in "#" + s;
  }

  /** A `#alias` without a server is only given the domain. */
  lemma HashedAliasAgrees(s: string, domain: string)
    requires StartsWith(s, '#') && ':' !in s
    ensures ParseRoomAlias(s, domain) == s + ":" + domain
    ensures ParseRoomAlias(s, domain) == Identifiers.ParseRoomIdOrAlias(s, domain)
  {
    assert ParseRoomAlias(s, domain) == s + ":" + domain;
    assert (s + ":" + domain)[0] == '#';
  }

  /** A bare name is given both the `#` and the domain, by either parser. */
  lemma BareAliasAgrees(s: string, domain: string)
    requires !StartsWith(s, '!') && !StartsWith(s, '#') && ':' !in s
    ensures ParseRoomAlias(s, domain) == "#" + s + ":" + domain
    ensures ParseRoomAlias(s, domain) == Identifiers.ParseRoomIdOrAlias(s, domain)
  {
  }

  /** Despite the opposite order of the two steps, on every input that is not
      a `!` room id the room bot's alias parser and the group bot's room
      parser agree. */
  lemma AliasAgreesWithGroupBot(s: string, domain: string)
    requires !StartsWith(s, '!')
    ensures ParseRoomAlias(s, domain) == Identifiers.ParseRoomIdOrAlias(s, domain)
  {
    if ':' in s {
      QualifiedAliasAgrees(s, domain);
    } else if StartsWith(s, '#') {
      HashedAliasAgrees(s, domain);
    } else {
      BareAliasAgrees(s, domain);
    }
  }

  /** On a `!` room id the two parsers disagree: the room bot turns it into
      an alias, the group bot keeps it a room id. */
  lemma RoomIdDivergesFromGroupBot(s: string, domain: string)
    requires StartsWith(s, '!')
    ensures ParseRoomAlias(s, domain) == "#" + s + (if ':' in s then "" else ":" + domain)
    ensures StartsWith(ParseRoomAlias(s, domain), '#')
    ensures StartsWith(Identifiers.ParseRoomIdOrAlias(s, domain), '!')
    ensures ParseRoomAlias(s, domain) != Identifiers.ParseRoomIdOrAlias(s, domain)
  {
  }
}

=== FILE: store.dfy ===
/** The group store and its queries: a sequence of groups (in the order the
    groups query returns them) and the next id the store will assign. */
module Store {
  import opened Wrappers
  import opened Entity

  datatype State = State(groups: seq<Group>, nextId: nat)

  /** The store before any group exists; SQLite assigns ids from 1. */
  const Empty: State := State([], 1)

  /** `name` is UNIQUE: no two groups share one. */
  predicate UniqueNames(groups: seq<Group>)
  {
    forall i, j :: 0 <= i < j < |groups| ==> groups[i].name != groups[j].name
  }

  /** `id` is the primary key: no two groups share one. */
  predicate UniqueIds(groups: seq<Group>)
  {
    forall i, j :: 0 <= i < j < |groups| ==> groups[i].id != groups[j].id
  }

  /** The table constraints of the three relations, plus: every id in use was
      handed out before `nextId`. */
  predicate Valid(s: State)
  {
    && UniqueNames(s.groups)
    && UniqueIds(s.groups)
    && (forall i :: 0 <= i < |s.groups| ==> s.groups[i].id < s.nextId && WellFormed(s.groups[i]))
  }

  lemma EmptyIsValid()
    ensures Valid(Empty)
  {
  }

  /** Position of the first group called `name` (exact, case-sensitive match). */
  function IndexOfName(groups: seq<Group>, name: string): (r: Option<nat>)
    ensures r.Some? ==> r.value < |groups| && groups[r.value].name == name
    ensures r.Some? ==> forall j :: 0 <= j < r.value ==> groups[j].name != name
    ensures r.None? <==> forall j :: 0 <= j < |groups| ==> groups[j].name != name
  {
    if |groups| == 0 then None
    else if groups[0].name == name then Some(0)
    else
      match IndexOfName(groups[1..], name)
      case None => None
      case Some(k) => Some(k + 1)
  }

  /** `get_group_by_name`: the group with exactly that name, or none. With
      unique names (`Valid`) the answer is the only group of that name. */
  function GetGroupByName(s: State, name: string): (r: Option<Group>)
    ensures r.None? <==> forall g :: g in s.groups ==> g.name != name
    ensures r.Some? ==> r.value in s.groups && r.value.name == name
    ensures r.Some? && Valid(s) ==> forall g :: g in s.groups && g.name == name ==> g == r.value
  {
    match IndexOfName(s.groups, name)
    case None => None
    case Some(i) => Some(s.groups[i])
  }

  /** `find_all_groups`: every group of the store, each once, in store order. */
  function FindAllGroups(s: State): (r: seq<Group>)
    ensures |r| == |s.groups|
    ensures forall g :: g in r <==> g in s.groups
  {
    s.groups
  }

  /** `a` can be obtained from `b` by deleting elements: an order-preserving filter. */
  predicate IsSubsequence<T(==)>(a: seq<T>, b: seq<T>)
    decreases |b|
  {
    if |a| == 0 then true
    else if |b| == 0 then false
    else (a[0] == b[0] && IsSubsequence(a[1..], b[1..])) || IsSubsequence(a, b[1..])
  }

  /** The groups of `groups` holding an edge with room id `roomId`, in order. */
  function GroupsWithRoom(groups: seq<Group>, roomId: RoomId): (r: seq<Group>)
    ensures forall g :: g in r <==> g in groups && HasRoom(g, roomId)
    ensures IsSubsequence(r, groups)
  {
    if |groups| == 0 then []
    else if HasRoom(groups[0], roomId) then [groups[0]] + GroupsWithRoom(groups[1..], roomId)
    else GroupsWithRoom(groups[1..], roomId)
  }

  /** The groups of `groups` holding an edge with user id `userId`, in order. */
  function GroupsWithUser(groups: seq<Group>, userId: UserId): (r: seq<Group>)
    ensures forall g :: g in r <==> g in groups && HasUser(g, userId)
    ensures IsSubsequence(r, groups)
  {
    if |groups| == 0 then []
    else if HasUser(groups[0], userId) then [groups[0]] + GroupsWithUser(groups[1..], userId)
    else GroupsWithUser(groups[1..], userId)
  }

  /** `find_groups_by_room`: the groups where `room in group.rooms`, which
      compares room ids only. */
  function FindGroupsByRoom(s: State, room: RoomEdge): (r: seq<Group>)
    ensures forall g :: g in r <==> g in s.groups && HasRoom(g, room.roomId)
    ensures IsSubsequence(r, FindAllGroups(s))
  {
    GroupsWithRoom(FindAllGroups(s), room.roomId)
  }

  /** `find_groups_by_user`: the groups where `user in group.users`, which
      compares user ids only. */
  function FindGroupsByUser(s: State, user: UserEdge): (r: seq<Group>)
    ensures forall g :: g in r <==> g in s.groups && HasUser(g, user.userId)
    ensures IsSubsequence(r, FindAllGroups(s))
  {
    GroupsWithUser(FindAllGroups(s), user.userId)
  }

  /** A subsequence never lists an element its host lacks, and is no longer. */
  lemma {:induction false} SubsequenceIsContained<T>(a: seq<T>, b: seq<T>)
    requires IsSubsequence(a, b)
    ensures |a| <= |b|
    ensures forall x :: x in a ==> x in b
    decreases |b|
  {
    if |a| == 0 {
    } else if a[0] == b[0] && IsSubsequence(a[1..], b[1..]) {
      SubsequenceIsContained(a[1..], b[1..]);
      assert forall x :: x in a ==> x == a[0] || x in a[1..];
      assert forall x :: x in b[1..] ==> x in b;
    } else {
      SubsequenceIsContained(a, b[1..]);
      assert forall x :: x in b[1..] ==> x in b;
    }
  }

  /** With unique names, at most one group can hold a given name. */
  lemma UniqueNameIdentifies(s: State, g: Group, h: Group)
    requires Valid(s)
    requires g in s.groups && h in s.groups && g.name == h.name
    ensures g == h
  {
  }

  /** Replacing one group by a well-formed group with the same id and name
      keeps the store valid and leaves every other group where it was. */
  lemma ReplaceGroupKeepsValid(s: State, i: nat, g': Group)
    requires Valid(s)
    requires i < |s.groups|
    requires g'.id == s.groups[i].id && g'.name == s.groups[i].name && WellFormed(g')
    ensures Valid(s.(groups := s.groups[i := g']))
    ensures g' in s.(groups := s.groups[i := g']).groups
  {
    assert s.groups[i := g'][i] == g';
  }

  /** Replacing one group by a group of the same name leaves every group of
      another name where it was. */
  lemma ReplaceGroupKeepsOthers(s: State, i: nat, g': Group)
    requires i < |s.groups|
    requires g'.name == s.groups[i].name
    ensures forall h: Group :: h.name != g'.name ==> (h in s.groups <==> h in s.groups[i := g'])
  {
    var groups := s.groups[i := g'];
    forall h: Group | h.name != g'.name
      ensures h in s.groups <==> h in groups
    {
      if h in s.groups {
        var j :| 0 <= j < |s.groups| && s.groups[j] == h;
        assert groups[j] == h;
      }
      if h in groups {
        var j :| 0 <= j < |groups| && groups[j] == h;
        assert s.groups[j] == h;
      }
    }
  }

  /** Deleting the group at one position keeps the store valid. */
  lemma {:induction false} RemoveGroupKeepsValid(s: State, i: nat)
    requires Valid(s)
    requires i < |s.groups|
    ensures Valid(s.(groups := s.groups[..i] + s.groups[i + 1..]))
  {
    var groups := s.groups[..i] + s.groups[i + 1..];
    assert forall k :: 0 <= k < |groups| ==> groups[k] == s.groups[if k < i then k else k + 1];
  }
}

=== FILE: strings.dfy ===
/** Character-level string predicates shared by both bots' identifier parsers. */
module Strings {

  /** Python's `s.startswith(c)` for a one-character prefix. */
  predicate StartsWith(s: string, c: char)
  {
    |s| > 0 && s[0] == c
  }

  /** `x` occurs as a contiguous block somewhere inside `s`. */
  predicate IsInfix(x: string, s: string)
  {
    exists i :: 0 <= i <= |s| && x <= s[i..]
  }

  /** `s` ends with `suffix`. */
  predicate EndsWith(s: string, suffix: string)
  {
    |suffix| <= |s| && s[|s| - |suffix|..] == suffix
  }

  /** Prepending and appending keep the original as an infix. */
  lemma InfixOfWrapped(pre: string, x: string, post: string)
    ensures IsInfix(x, pre + x + post)
  {
    var s := pre + x + post;
    assert s[|pre|..] == x + post;
  }

  /** What a string wrapped as `pre + x + post` keeps of its parts: its first
      character, every character of `x` and of `post`, and `post` as suffix. */
  lemma WrappedFacts(pre: string, x: string, post: string, c: char)
    ensures IsInfix(x, pre + x + post)
    ensures EndsWith(pre + x + post, post)
    ensures c in x || c in post ==> c in pre + x + post
    ensures |pre| > 0 ==> StartsWith(pre + x + post, pre[0])
    ensures |pre| == 0 && |x| > 0 ==> StartsWith(pre + x + post, x[0])
  {
    var s := pre + x + post;
    InfixOfWrapped(pre, x, post);
    assert s[|s| - |post|..] == post;
    if c in x {
      var k :| 0 <= k < |x| && x[k] == c;
      assert s[|pre| + k] == c;
    } else if c in post {
      var k :| 0 <= k < |post| && post[k] == c;
      assert s[|pre| + |x| + k] == c;
    }
  }
}

=== FILE: wrappers.dfy ===
/** Failure-compatible wrappers used throughout the model: an optional value
    (Python's `None`-or-value) and a result that is either a value or a
    user-facing error (Python's `raise UserError(...)`). */
module Wrappers {

  datatype Option<+T> = None | Some(value: T)

  datatype Result<+T, +E> = Success(value: T) | Failure(error: E)
}
